=== FILE: README.md ===
# Pattern stops from GTFS, modelled in Dafny

`arcpy_create_pattern_stops_fc.py` turns the GTFS Schedule tables `trips.txt`,
`routes.txt`, `stops.txt` and `stop_times.txt` into *pattern stops*. These are
the ordered stops of one sample trip for each (shape_id, route_id, direction_id)
pattern. The script then writes them as points into an ArcGIS feature class.
This project models the four pieces of pure logic under the pandas and arcpy
calls, and proves properties of them:

1. **Sample trip selection** (`createtripslist`), in module `SampleTrips`.
   - Group the trips by pattern and keep the first trip of each group.
   - Left-join the route attributes by route_id.
   - Rename trip_id, service_id and trip_headsign to `sample_*`.
2. **Pattern stop resolution** (`to_dict2`, `patternstopslist2`,
   `createpatternstopsdf`), in modules `Grouping` and `PatternStops`.
   - Build "first row wins" lookups keyed by stop_id and by sample_trip_id.
   - For each distinct sample trip, take its stop_times rows in table order.
   - Update each row with its stop's attributes, then with the pattern's
     route_id and direction_id.
3. **Schema reconciliation** (`getfields`, `addfcfields`,
   `addconflictingfieldtypes`), in modules `Schema` and `FeatureStore`.
   - Translate dtypes to field types.
   - Add the fields the feature class lacks.
   - Rename a column to `<name>_2` when its type clashes with a same-named
     field, and add that field.
4. **Writing** (`write_patternstop_fc`), in module `FeatureWriter`.
   - Match the feature class's fields against the table's columns.
   - Build one insert tuple per record: the matched values plus the
     (stop_lon, stop_lat) point.
   - Insert each tuple, collect the ones the store refuses, and report the
     counts.

How the model represents the script's data and effects:
- Tables are sequences of rows. A row is a map from column name to a
  `Value`: null, text, integer or decimal. Values compare structurally.
- Pandas `KeyError`s on columns, dictionary lookups and the join's
  column-overlap `ValueError` become `Failure` values of a `Result`.
- The feature class is a value: `Store(fields, records)`. `AddFields` appends
  fields, and an insert appends a record.
- Whether `insertRow` succeeds on a tuple is a function parameter, `accepts`.

Modules and files:
- `tables.dfy`: values, rows, tables, errors and `Result`.
- `seqs.dfy`: order-preserving filter, map and concatenation, with their lemmas.
- `grouping.dfy`: first occurrences, and the first-row-per-key lookup (`to_dict2`).
- `sample_trips.dfy`: `createtripslist`.
- `pattern_stops.dfy`: `patternstopslist2` and `createpatternstopsdf`.
- `feature_store.dfy`: the feature class as a value.
- `schema.dfy`: `getfields`, `addfcfields` and `addconflictingfieldtypes`.
- `feature_writer.dfy`: `write_patternstop_fc`.

## Model

| member | source | states |
|---|---|---|
| Grouping.FirstIndices | arcpy_create_pattern_stops_fc.py:13 | The positions holding the first occurrence of their key, in increasing order. Every first occurrence below the bound is listed. |
| Grouping.FirstIndicesKeys | arcpy_create_pattern_stops_fc.py:13 | The keys at those positions are pairwise distinct, and every key of the prefix appears among them. |
| Grouping.FirstIndicesBySeenSet | arcpy_create_pattern_stops_fc.py:32 | The one-pass loop with a set of seen keys, as `unique()` works, computes exactly the first-occurrence positions. |
| Grouping.FirstRowPerKey | arcpy_create_pattern_stops_fc.py:19-20 | `to_dict2`. The lookup's keys are exactly the key values of the rows. No entry holds the key column. |
| Grouping.FirstRowPerKeyFirst | arcpy_create_pattern_stops_fc.py:19-20 | The entry for the key of a row where that key first occurs is that row without the key column: later rows with the same key do not overwrite it. |
| Grouping.FirstRowPerKeyEntry | arcpy_create_pattern_stops_fc.py:19-20 | Every entry of the lookup is the first row with that key, less the key column. |
| SampleTrips.FirstTripPerPatternDistinct | arcpy_create_pattern_stops_fc.py:13 | No two selected trips share a pattern. |
| SampleTrips.FirstTripPerPatternCovers | arcpy_create_pattern_stops_fc.py:13 | Every trip's pattern has a selected trip. |
| SampleTrips.FirstTripPerPatternIsFirst | arcpy_create_pattern_stops_fc.py:13 | Each selected trip is the first trip of its pattern in table order. |
| SampleTrips.RouteAttributeColumns | arcpy_create_pattern_stops_fc.py:15 | The join adds exactly the routes columns other than route_id. |
| SampleTrips.JoinRoute | arcpy_create_pattern_stops_fc.py:15 | The left join never drops a trip: each trip yields at least one row. Its rows are described by `JoinRouteUnmatched` and `JoinRouteMatched`. |
| SampleTrips.JoinRouteUnmatched | arcpy_create_pattern_stops_fc.py:15 | A trip whose route_id no route has gives one row, with null route attributes. |
| SampleTrips.JoinRouteMatched | arcpy_create_pattern_stops_fc.py:15 | A trip whose route_id some route has gives one row per matching route. A row is in the join exactly when it is the trip joined with a route of the same route_id. |
| SampleTrips.SelectSamplePatterns | arcpy_create_pattern_stops_fc.py:8-17 | `createtripslist` fails exactly when a grouping column is missing from trips, route_id is missing from routes, or a route attribute column is also a trips column (the join's overlap error). A missing grouping column is reported against trips. The route_id dtype-mismatch error of the join is not modelled (see "## Left out"). |
| SampleTrips.RenameSample | arcpy_create_pattern_stops_fc.py:16 | Computes the `rename` of one row. What it does to each column is stated by `RenameSampleCell`, `RenamedCell` and `RenameSampleKeeps`. |
| SampleTrips.RenameSampleKeeps | arcpy_create_pattern_stops_fc.py:16 | The rename leaves every column other than the three renamed ones and their new names as it was. |
| SampleTrips.RenameSampleCell | arcpy_create_pattern_stops_fc.py:16 | When the row holds no `sample_*` column before the rename, each `sample_*` column afterwards holds its old column's value, the old names are gone, and every other column is unchanged. |
| SampleTrips.JoinKeepsKey | arcpy_create_pattern_stops_fc.py:15 | The join adds only route attributes, so the trip keeps its (shape_id, route_id, direction_id) values. |
| SampleTrips.RenameSampleKeepsKey | arcpy_create_pattern_stops_fc.py:16 | The rename keeps the pattern key. |
| SampleTrips.SampleRowKey | arcpy_create_pattern_stops_fc.py:15-16 | Joining and renaming keep the trip's pattern key. |
| SampleTrips.SamplePatternsCoverTrips | arcpy_create_pattern_stops_fc.py:13-16 | Every pattern of the trips table has an output row, and every output row belongs to a pattern of the trips table. |
| SampleTrips.AtMostOneRoute | arcpy_create_pattern_stops_fc.py:15 | When route_id is unique in routes, a trip matches at most one route. |
| SampleTrips.JoinRouteSingle | arcpy_create_pattern_stops_fc.py:15 | With unique route ids, one trip joins into exactly one row: with its route, or with nulls. |
| SampleTrips.JoinRoutes | arcpy_create_pattern_stops_fc.py:15 | Computes the left join of all first trips, trip by trip. Its coverage is stated by `SamplePatternsCoverTrips`, and its one-row-per-trip shape under unique route ids by `JoinRoutesOneEach`. |
| SampleTrips.JoinRoutesOneEach | arcpy_create_pattern_stops_fc.py:15 | With unique route ids, the left join gives exactly one row per first trip: the trip joined with its route, or with nulls when none matches. |
| SampleTrips.OneSamplePerPattern | arcpy_create_pattern_stops_fc.py:13-16 | With unique route ids there is exactly one output row per pattern, in the order of the patterns' first trips. Output rows have pairwise distinct patterns. |
| SampleTrips.RenamedCell | arcpy_create_pattern_stops_fc.py:16 | When the row holds no `sample_*` column, each renamed column's value appears under its `sample_*` name. |
| SampleTrips.SampleRowCell | arcpy_create_pattern_stops_fc.py:15-16 | When neither the trip nor the route attributes hold a `sample_*` name, and the route attributes hold none of trip_id, service_id and trip_headsign: where every cell of an output row comes from. The `sample_*` cells come from the trip's trip_id, service_id and trip_headsign; route attributes from the matched route (null if none); other cells from the trip. |
| SampleTrips.SampleRowCells | arcpy_create_pattern_stops_fc.py:15-16 | The three `sample_*` cells and all route attribute cells of one output row, in one statement. |
| SampleTrips.SampleRowsDescribed | arcpy_create_pattern_stops_fc.py:13-16 | On GTFS-shaped tables, output row k carries the k-th first trip's trip_id, service_id and trip_headsign under the `sample_*` names, and its route's attributes (null for an unmatched route_id). |
| PatternStops.LookupRowEntry | arcpy_create_pattern_stops_fc.py:28 | A row of the projected sample table, less sample_trip_id, holds exactly route_id and direction_id. |
| PatternStops.SampleTripIdsDistinct | arcpy_create_pattern_stops_fc.py:32 | The sample trips are listed once each, and every sample trip is listed. |
| PatternStops.Enrich | arcpy_create_pattern_stops_fc.py:37-39 | One row succeeds exactly when it has a stop_id the stops lookup knows, and the updated row has a trip_id the routes lookup knows. On success the result is the row updated with the stop entry, then the pattern entry. |
| PatternStops.ResolveRows | arcpy_create_pattern_stops_fc.py:35-39 | A trip's rows all resolve, in order, exactly when each row does. A failure is the failure of one of its rows. |
| PatternStops.ResolveTrips | arcpy_create_pattern_stops_fc.py:33-41 | The outer loop succeeds exactly when every stop_times row of every listed trip resolves. Its output is the concatenation of the per-trip runs in trip order. A failure comes from one such row. |
| PatternStops.ResolvePatternStops | arcpy_create_pattern_stops_fc.py:22-42 | `patternstopslist2` reports a stops table without stop_id, and a sample table without one of the three lookup columns, before any row is read. When those are present and there is at least one sample trip, a stop_times table without trip_id fails with that missing column, as the first `stop_times['trip_id']` does. |
| PatternStops.CreatePatternStops | arcpy_create_pattern_stops_fc.py:44-49 | A selection error is passed on unchanged. Otherwise the result is the resolver run on the selected samples. |
| PatternStops.StopsLookup | arcpy_create_pattern_stops_fc.py:27 | Computes `to_dict2` on stops by stop_id. Its keys and entries are stated by `Grouping.FirstRowPerKey`, `Grouping.FirstRowPerKeyFirst` and `StopsLookupWithoutTrip`. |
| PatternStops.StopsLookupWithoutTrip | arcpy_create_pattern_stops_fc.py:27 | When stops has no trip_id column, no stop entry holds trip_id, so the stop update cannot change the trip key. |
| PatternStops.RoutesLookup | arcpy_create_pattern_stops_fc.py:28 | Computes `to_dict2` on the projected sample table by sample_trip_id. Its keys and entries are stated by `RoutesLookupEntry`. |
| PatternStops.RoutesLookupEntry | arcpy_create_pattern_stops_fc.py:28 | The routes lookup has an entry exactly for the sample trip ids. The entry is the route_id and direction_id of the first sample row naming that trip. |
| PatternStops.Merge | arcpy_create_pattern_stops_fc.py:37-39 | Computes the row after both `update` calls. Cell by cell, it is stated by `MergeCell` and `MergeKeepsTrip`. |
| PatternStops.MergeCell | arcpy_create_pattern_stops_fc.py:37-39 | For a stops table without a trip_id column, and a row whose stop and trip are both known: in the resolved row, route_id and direction_id come from the pattern. Stop attributes overwrite same-named stop_times fields. Every other field keeps its stop_times value. |
| PatternStops.MergeKeepsTrip | arcpy_create_pattern_stops_fc.py:37-39 | When the stops table has no trip_id column, resolving a row keeps its trip_id. (A stops table with trip_id could rewrite it before the pattern lookup.) |
| PatternStops.TripStopTimes | arcpy_create_pattern_stops_fc.py:34 | Computes the stop_times rows of one trip, in table order. The rows it selects for each trip are stated by `PatternStopsOfTrip` and `TripRunTrip`. |
| PatternStops.TripRunTrip | arcpy_create_pattern_stops_fc.py:34-39 | When the stops table has no trip_id column, every row of a trip's run carries that trip's id. |
| PatternStops.PatternStopsOfTrip | arcpy_create_pattern_stops_fc.py:32-41 | For a successful run with a stops table without a trip_id column: the output rows with trip_id t are, for a sample trip, exactly its stop_times rows in original order, each resolved. A sample trip without stop_times rows gives none. Any other trip gives none. |
| PatternStops.PatternStopsCount | arcpy_create_pattern_stops_fc.py:32-41 | The output length is the sum, over the sample trips, of their stop_times row counts. |
| PatternStops.EnrichSelectedRow | arcpy_create_pattern_stops_fc.py:37-39 | For a stop_times row of a sample trip, with a stops table without trip_id, resolution fails exactly when the stop is unknown, and then reports that stop_id. |
| PatternStops.VisitedRowEnrich | arcpy_create_pattern_stops_fc.py:34-37 | On well-formed tables, a row the loop visits resolves exactly when its stop_id is in the stops lookup. Otherwise it fails with that stop_id. |
| PatternStops.PatternStopsFailOnUnknownStop | arcpy_create_pattern_stops_fc.py:34-41 | On well-formed GTFS tables, the resolver succeeds exactly when every stop_times row of a sample trip names a known stop. Otherwise it fails with UnknownStop for such a row's stop_id: a row is never skipped. |
| FeatureStore.FieldTypeOf | arcpy_create_pattern_stops_fc.py:63 | The String/Integer/Double translation undoes the type a keyword creates. Any other store type translates to nothing. |
| FeatureStore.AddFields | arcpy_create_pattern_stops_fc.py:78 | Adding fields keeps the records and the existing fields in order, and appends one field per entry with its keyword's type. |
| Schema.GetFields | arcpy_create_pattern_stops_fc.py:51-60 | One field per column, in column order, names unchanged. object maps to TEXT, int64 to LONG, float64 to DOUBLE, and every other dtype to TEXT. |
| Schema.AddMissingFields | arcpy_create_pattern_stops_fc.py:85-92 | Adding the missing fields keeps the records and never removes or changes an existing field. |
| Schema.AddMissingFieldsAdded | arcpy_create_pattern_stops_fc.py:87-92 | Every field appended has a name absent from the store and is a derived column's field. Every column whose name is absent gets its derived field. |
| Schema.AddMissingFieldsCoversColumns | arcpy_create_pattern_stops_fc.py:87-92 | Afterwards every column name is a field name of the store. |
| Schema.AddMissingFieldsIdempotent | arcpy_create_pattern_stops_fc.py:89-92 | A second pass adds nothing. |
| Schema.ConflictsByStoreType | arcpy_create_pattern_stops_fc.py:63-71 | A same-named field conflicts exactly when its type is not the one the derived keyword creates. A field of any other type always conflicts. |
| Schema.ConflictFieldsNonEmpty | arcpy_create_pattern_stops_fc.py:68-77 | `fieldstoadd` is non-empty exactly when some derived field conflicts with some store field. |
| Schema.ConflictFieldsContent | arcpy_create_pattern_stops_fc.py:68-76 | Every entry of `fieldstoadd` is `<name>_2` with the type of a conflicting derived field. Every conflicting derived field contributes one. |
| Schema.AddConflictingFields | arcpy_create_pattern_stops_fc.py:62-82 | Computes `addconflictingfieldtypes`. Its meaning is stated by `AddConflictingFieldsUnchanged`, `AddConflictingFieldsAddsOnlyConflicts`, `AddConflictingFieldsAddsEveryConflict` and `AddConflictingFieldsFrame`. |
| Schema.AddConflictingFieldsUnchanged | arcpy_create_pattern_stops_fc.py:77-82 | Store and table come back unchanged exactly when nothing conflicts. The store only grows at the end and keeps its records. |
| Schema.AddConflictingFieldsAddsOnlyConflicts | arcpy_create_pattern_stops_fc.py:71-78 | Every field appended is `<name>_2` with the derived type of a conflicting column. |
| Schema.AddConflictingFieldsAddsEveryConflict | arcpy_create_pattern_stops_fc.py:71-78 | Every conflicting column has its `<name>_2` field appended. |
| Schema.RenameKeysMoves | arcpy_create_pattern_stops_fc.py:80 | A renamed record holds the old column's value under `<name>_2`. |
| Schema.AddConflictingFieldsFrame | arcpy_create_pattern_stops_fc.py:73-80 | With unique column names, exactly the conflicting columns are renamed to `<name>_2` with their dtype. In every record a renamed column's value is found under `<name>_2`, and a column left alone keeps its value unless its name is the `<name>_2` of a conflicting column. |
| Schema.AddConflictingFieldsColumns | arcpy_create_pattern_stops_fc.py:73-80 | With unique column names, exactly the conflicting columns are renamed to `<name>_2`, keeping their dtype and position. |
| Schema.RenameKeysKeeps | arcpy_create_pattern_stops_fc.py:80 | A renamed record keeps the value of a key that is not renamed, when no renamed key's `<name>_2` equals it. |
| Schema.AddConflictingFieldsKeeps | arcpy_create_pattern_stops_fc.py:73-80 | With unique column names, a column that does not conflict keeps its value in every record, unless its name is the `<name>_2` of a conflicting column. |
| Schema.AddConflictingFieldsRows | arcpy_create_pattern_stops_fc.py:80 | In every record, a conflicting column's value is found under `<name>_2`. |
| Schema.RenameFrameWellFormed | arcpy_create_pattern_stops_fc.py:80 | Renaming columns and record keys together keeps every record's keys equal to the column names. |
| Schema.FreshFieldsNeverConflict | arcpy_create_pattern_stops_fc.py:84-93 | The fields just added for missing names never conflict, so the conflict step sees exactly the conflicts of the feature class as it was before the call. |
| Schema.AddFcFields | arcpy_create_pattern_stops_fc.py:84-93 | No feature class gives neither store nor table. Otherwise the records are kept and existing fields are never removed or retyped. |
| Schema.AddFcFieldsRenames | arcpy_create_pattern_stops_fc.py:84-93 | `addfcfields` renames exactly the columns that conflict with the feature class as it was before the call. |
| Schema.AddFcFieldsCoversColumns | arcpy_create_pattern_stops_fc.py:84-93 | Every column of the returned table names a field of the resulting feature class. |
| Schema.AddFcFieldsIdempotentWithoutConflict | arcpy_create_pattern_stops_fc.py:84-93 | Without conflicts the table comes back unchanged, and a second call changes nothing. |
| Schema.ConflictsPersist | arcpy_create_pattern_stops_fc.py:73-78 | A conflict is never resolved. The resulting feature class still conflicts on the same column, so the next call asks again for the same `<name>_2` field. |
| Schema.RatingConflictFields | arcpy_create_pattern_stops_fc.py:68-76 | Worked case: a text `rating` column against an Integer `rating` field yields `fieldstoadd = [rating_2 TEXT]` and renames `rating`. |
| Schema.RatingConflictExample | arcpy_create_pattern_stops_fc.py:84-93 | Worked case: the feature class ends with `rating` (Integer) and `rating_2` (String), and the table's column is renamed `rating_2`. |
| FeatureWriter.MatchedFields | arcpy_create_pattern_stops_fc.py:102-103 | A name is matched exactly when it is both a field of the feature class and a column of the table. Order and multiplicity are stated by `MatchedFieldsInFieldOrder`. |
| FeatureWriter.MatchedFieldsInFieldOrder | arcpy_create_pattern_stops_fc.py:102-103 | The matched names are the field names that are table columns, in feature-class field order, each as often as it occurs among the fields: the k-th matched name sits at the k-th such field position, and no such position is skipped. |
| FeatureWriter.BuildTuple | arcpy_create_pattern_stops_fc.py:108-109 | Computes one record's insert tuple, or the KeyError. When it succeeds and what it holds is stated by `BuildTupleSpec`. |
| FeatureWriter.BuildTuples | arcpy_create_pattern_stops_fc.py:107-109 | Computes the tuples of all records, up to the first KeyError. Its meaning is stated by `BuildTuplesSpec` and `BuildTuplesStopsAt`. |
| FeatureWriter.BuildTupleSpec | arcpy_create_pattern_stops_fc.py:108-109 | A tuple is built exactly when the record has every matched field, stop_lon and stop_lat. It lists the matched fields' values in order, then the point. Otherwise the error names a column the record lacks. |
| FeatureWriter.BuildTuplesSpec | arcpy_create_pattern_stops_fc.py:107-109 | All tuples are built exactly when each record's is. They are then one per record, in order. |
| FeatureWriter.BuildTuplesStopsAt | arcpy_create_pattern_stops_fc.py:107-109 | The first record whose tuple cannot be built decides the error. |
| FeatureWriter.InsertRows | arcpy_create_pattern_stops_fc.py:105-113 | The insert loop leaves the fields alone. It appends the accepted tuples to the records in order and collects the refused ones. A record without a needed key ends the loop with that error, keeping the rows already inserted. |
| FeatureWriter.WritePatternStops | arcpy_create_pattern_stops_fc.py:98-114 | `write_patternstop_fc` appends the accepted tuples and reports the refused ones. Inserted plus not inserted equals the number of records, and together they are a permutation of the tuples. The fields are those `addfcfields` left. No feature class is an error. |
| FeatureWriter.BuildTuplesWellFormed | arcpy_create_pattern_stops_fc.py:107-109 | Records holding every matched field and both coordinates all yield tuples. |
| FeatureWriter.AddFcFieldsWellFormed | arcpy_create_pattern_stops_fc.py:100 | The table `addfcfields` returns keeps its records in step with its columns. |
| FeatureWriter.MatchedFieldsCoverColumns | arcpy_create_pattern_stops_fc.py:100-103 | With unique column names, every column of the reconciled table is matched, so every value is written. |
| FeatureWriter.WriteSucceedsWithoutCoordinateConflict | arcpy_create_pattern_stops_fc.py:100-109 | A well-formed table whose coordinate columns do not conflict with the feature class yields a tuple for every record. |
| FeatureWriter.ConflictingStopLonDropped | arcpy_create_pattern_stops_fc.py:73-80 | When stop_lon conflicts with the feature class, no record of the returned table has a stop_lon key. |
| FeatureWriter.RenamedRowLacks | arcpy_create_pattern_stops_fc.py:80 | A renamed stop_lon key is gone from the record, and no `<name>_2` key is stop_lon. |
| FeatureWriter.CoordinateKeyErrorFirst | arcpy_create_pattern_stops_fc.py:108-109 | A record that has every matched field but lacks stop_lon fails on stop_lon. |
| FeatureWriter.CoordinateConflictStopsWrite | arcpy_create_pattern_stops_fc.py:100-109 | When stop_lon conflicts, the column is renamed but the point is still read from stop_lon. The first record then raises a KeyError on stop_lon and nothing is inserted. |

## Left out

- Reading the CSV files (`pd.read_csv`). The tables are inputs.
- Building the resolver's DataFrame from records (`pd.DataFrame(patternstops)`).
  - This includes column order and dtype inference.
  - The resolver returns its rows, and the writer takes a typed `Frame` as input.
  - The link between the two is not modelled.
- Pandas group order. `groupby` sorts group keys; the model keeps first-appearance order, so the statements about output order hold up to that reordering.
- Pandas drops NaN group keys. The model treats a null key like any other value.
- Pandas `GroupBy.first` takes the first non-null value per column. The model takes the first row whole.
- arcpy is replaced by a store value.
  - `Exists` is the `Option` around the store.
  - `ListFields` is its field list.
  - `AddFields` appends, with no check for a field that already exists.
  - `insertRow` success is the `accepts` parameter.
  - Cursor locking and edit sessions are not modelled.
  - Rows inserted before a `KeyError` stay in the store.
- With no feature class, the script fails inside arcpy or on `None`. The model returns `StoreMissing` instead.
- `print` output. The writer's two counts are returned in `WriteReport` instead.
- The driver `make_patternstop_fc` (feature class creation, directory listing, the per-agency loop), the `__main__` block and the unused `create_csv` flag.
- Python's equality on cell values. The model compares values structurally: `Integer(5)` differs from `Decimal(5.0)`, and `Null` equals `Null`.
  - Python treats `5 == 5.0` as equal, with the same hash. pandas' NaN equals nothing.
  - The stops and routes lookups, the trip_id filter and the route_id join all use this equality.
  - So the model can differ from the script in three cases. One is a key column read as float64 in one table and int64 in the other, for example because of one blank cell. Another is a null key. The third is the route_id join on columns of different kinds, described next.
  - No numeric reasoning is done: coordinates are passed through unchanged.
- Duplicate column labels are not modelled.
  - The renaming lemmas assume unique column names, as a DataFrame built from records has.
- SampleTrips.SampleRowsDescribed: assumes GTFS-shaped input. Neither trips nor routes has a `sample_*` column, and routes has no trip_id, service_id or trip_headsign column.
- SampleTrips.SelectSamplePatterns: does not model the `ValueError` pandas raises in the route_id join when trips' route_id column is numeric (int64) and routes' is text (object), for example when every trip's route_id is a number but routes.txt also lists a route "10A". Column dtypes come from `read_csv` type inference, which the model does not carry. The model joins cell by cell instead: `Integer(10)` never equals a `Text` value, so such trips join with null route attributes and the call succeeds.
- SampleTrips.OneSamplePerPattern: assumes route_id is unique in routes. The join is a true left join, so duplicate route ids give one row per matching route, as in pandas.
- FeatureWriter.BuildTupleSpec: on failure, it names an absent column but not that it is the first absent one in the order matched fields, stop_lon, stop_lat. `CoordinateKeyErrorFirst` states the order for the stop_lon case.
- PatternStops.ResolvePatternStops: its own contract covers only the missing-column errors: stops without stop_id, the sample table without a lookup column, and stop_times without trip_id. The row-level behaviour is stated by `ResolveTrips`, `PatternStopsOfTrip`, `PatternStopsCount` and `PatternStopsFailOnUnknownStop`.

=== FILE: feature_store.dfy ===
/** The point feature class the pattern stops are written to, reduced to
    what the pipeline observes of it: an ordered field list with types, and
    the records inserted so far. */
module FeatureStore {
  import opened Tables
  import opened Seqs

  /** Field type keywords the pipeline passes to `AddFields`. */
  datatype FieldType = TEXT | LONG | DOUBLE

  /** A field to add: name and type keyword. */
  datatype Field = Field(name: string, ftype: FieldType)

  /** Field types `ListFields` reports; the pipeline only distinguishes
      String, Integer and Double (OID, Geometry, SmallInteger, Date, ... are
      `OtherType`). */
  datatype StoreType = StringType | IntegerType | DoubleType | OtherType(typeName: string)

  datatype StoreField = StoreField(name: string, stype: StoreType)

  /** The (x, y) pair of the `SHAPE@XY` token. */
  datatype Point = Point(x: Value, y: Value)

  /** One `insertRow` call: the field list of the cursor, the attribute
      values in that order, and the point. */
  datatype InsertTuple = InsertTuple(fields: seq<string>, values: seq<Value>, xy: Point)

  datatype Store = Store(fields: seq<StoreField>, records: seq<InsertTuple>)

  /** The type `ListFields` reports for a field created with keyword `t`. */
  function StoreTypeOf(t: FieldType): StoreType {
    match t
    case TEXT => StringType
    case LONG => IntegerType
    case DOUBLE => DoubleType
  }

  /** The `{'String': 'TEXT', 'Integer': 'LONG', 'Double': 'DOUBLE'}`
      translation of a reported type; `None` for any other type. It undoes
      `StoreTypeOf`. */
  function FieldTypeOf(s: StoreType): (r: Option<FieldType>)
    ensures r.Some? ==> StoreTypeOf(r.value) == s
    ensures forall t: FieldType :: s == StoreTypeOf(t) ==> r == Some(t)
  {
    match s
    case StringType => Some(TEXT)
    case IntegerType => Some(LONG)
    case DoubleType => Some(DOUBLE)
    case OtherType(_) => None
  }

  function FieldNames(store: Store): (r: seq<string>)
    ensures |r| == |store.fields|
    ensures forall i :: 0 <= i < |r| ==> r[i] == store.fields[i].name
  {
    MapSeq(store.fields, (f: StoreField) => f.name)
  }

  /** `arcpy.management.AddFields`, taken as appending every listed field,
      whether or not a field of that name exists. */
  function AddFields(store: Store, fields: seq<Field>): (r: Store)
    ensures r.records == store.records
    ensures |r.fields| == |store.fields| + |fields|
    ensures r.fields[..|store.fields|] == store.fields
    ensures forall i :: 0 <= i < |fields| ==>
      r.fields[|store.fields| + i] == StoreField(fields[i].name, StoreTypeOf(fields[i].ftype))
  {
    store.(fields := store.fields + MapSeq(fields, (f: Field) => StoreField(f.name, StoreTypeOf(f.ftype))))
  }
}

=== FILE: feature_writer.dfy ===
/** Writing the pattern stops into the feature class
    (`write_patternstop_fc`): reconcile the schema, pick the fields both
    sides share, build one insert tuple per record and count the records
    the store refuses. */
module FeatureWriter {
  import opened Tables
  import opened Seqs
  import opened FeatureStore
  import opened Schema

  /** Name of the table in `MissingColumn` errors raised while writing. */
  const PatternStopsTable := "pattern stops"

  /** What the write reports: the number of records in the table and the
      tuples `insertRow` refused. */
  datatype WriteReport = WriteReport(total: nat, notInserted: seq<InsertTuple>)

  /** The feature class after the call (`None` when it does not exist) and
      the report, or the error the write stopped with. */
  datatype WriteOutcome = WriteOutcome(store: Option<Store>, report: Result<WriteReport>)

  /** `matchedfields`: the feature class's field names, in its order, that
      are also columns of the table. */
  function MatchedFields(store: Store, frame: Frame): (r: seq<string>)
    ensures forall g :: g in r <==> g in FieldNames(store) && g in ColumnNames(frame)
  {
    var names := FieldNames(store);
    var columns := ColumnNames(frame);
    var r := Filter(names, IsColumnOf(frame));
    assert forall g :: g in r ==> g in names && g in columns by {
      forall g | g in r
        ensures g in names && g in columns
      {
        var i :| 0 <= i < |r| && r[i] == g;
      }
    }
    assert forall g :: g in names && g in columns ==> g in r by {
      forall g | g in names && g in columns
        ensures g in r
      {
        var i :| 0 <= i < |names| && names[i] == g;
      }
    }
    r
  }

  /** The test `g in newstopdf.columns` of the list comprehension. */
  function IsColumnOf(frame: Frame): string -> bool {
    (g: string) => g in ColumnNames(frame)
  }

  /** The matched names are the feature-class field names that are table
      columns, kept in field order and with their multiplicity: the k-th
      matched name is the field name at the k-th such position, the
      positions increase, and no such position is skipped. */
  lemma MatchedFieldsInFieldOrder(store: Store, frame: Frame)
    ensures var names := FieldNames(store);
      var r := MatchedFields(store, frame);
      var idx := FilterIndices(names, IsColumnOf(frame));
      && |idx| == |r|
      && (forall k :: 0 <= k < |idx| ==> 0 <= idx[k] < |names| && r[k] == names[idx[k]])
      && (forall k, l :: 0 <= k < l < |idx| ==> idx[k] < idx[l])
      && (forall i :: 0 <= i < |names| && names[i] in ColumnNames(frame) ==> i in idx)
  {
    FilterIndicesSpec(FieldNames(store), IsColumnOf(frame));
  }

  /** `row_to_insert`: the values of the matched fields in order, then the
      point (`stop_lon`, `stop_lat`); a record lacking any of them raises
      a KeyError before the insert is tried. */
  function BuildTuple(row: Row, matched: seq<string>): Result<InsertTuple> {
    match FirstAbsent(matched + [StopLon, StopLat], row.Keys)
    case Some(k) => Failure(MissingColumn(PatternStopsTable, k))
    case None =>
      Success(InsertTuple(matched, seq(|matched|, i requires 0 <= i < |matched| && matched[i] in row => row[matched[i]]),
                          Point(row[StopLon], row[StopLat])))
  }

  /** A tuple is built exactly when the record holds every matched field and
      both coordinates; it lists the matched values in order and then the
      point. A failure names a column the record lacks. */
  lemma BuildTupleSpec(row: Row, matched: seq<string>)
    ensures var r := BuildTuple(row, matched);
      && (r.Success? <==> (forall x :: x in matched ==> x in row) && StopLon in row && StopLat in row)
      && (r.Success? ==>
            && r.value.fields == matched
            && |r.value.values| == |matched|
            && (forall i :: 0 <= i < |matched| ==> r.value.values[i] == row[matched[i]])
            && r.value.xy == Point(row[StopLon], row[StopLat]))
      && (r.Failure? ==> r.error.MissingColumn? && r.error.column !in row)
  {
    var keys := matched + [StopLon, StopLat];
    assert StopLon == keys[|matched|];
    assert StopLat == keys[|matched| + 1];
  }

  /** The tuples of all records in order, or the error of the first record
      whose tuple cannot be built. */
  function BuildTuples(rows: seq<Row>, matched: seq<string>): Result<seq<InsertTuple>> {
    if |rows| == 0 then Success([])
    else
      var init :- BuildTuples(rows[..|rows| - 1], matched);
      var t :- BuildTuple(rows[|rows| - 1], matched);
      Success(init + [t])
  }

  /** All tuples are built exactly when each record's is, and they are then
      one per record, in order. */
  lemma {:induction false} BuildTuplesSpec(rows: seq<Row>, matched: seq<string>)
    ensures var r := BuildTuples(rows, matched);
      && (r.Success? <==> forall k :: 0 <= k < |rows| ==> BuildTuple(rows[k], matched).Success?)
      && (r.Success? ==>
            && |r.value| == |rows|
            && forall k :: 0 <= k < |rows| ==> r.value[k] == BuildTuple(rows[k], matched).value)
  {
    if |rows| > 0 {
      var init := rows[..|rows| - 1];
      BuildTuplesSpec(init, matched);
      assert forall k :: 0 <= k < |init| ==> init[k] == rows[k];
    }
  }

  /** The negation of an insert outcome. */
  function Refused(accepts: InsertTuple -> bool): InsertTuple -> bool {
    t => !accepts(t)
  }

  /** The insert loop stopped at record `i`: the records before it were
      built, accepted ones inserted, and record `i` could not be built. */
  ghost predicate StoppedAt(store: Store, rows: seq<Row>, matched: seq<string>, accepts: InsertTuple -> bool, written: Store, i: int) {
    && 0 <= i < |rows| && BuildTuples(rows[..i], matched).Success?
    && BuildTuple(rows[i], matched).Failure?
    && written.records == store.records + Filter(BuildTuples(rows[..i], matched).value, accepts)
  }

  /** The insert loop of `write_patternstop_fc`. `accepts` says whether
      `insertRow` succeeds on a tuple; accepted tuples are appended to the
      store in order and refused ones collected. A record whose tuple
      cannot be built ends the loop with that error, keeping the records
      already inserted; `processed` is the number of records handled. */
  method InsertRows(store: Store, rows: seq<Row>, matched: seq<string>, accepts: InsertTuple -> bool)
    returns (written: Store, notInserted: Result<seq<InsertTuple>>, processed: nat)
    ensures written.fields == store.fields
    ensures notInserted.Success? <==> BuildTuples(rows, matched).Success?
    ensures notInserted.Success? ==> processed == |rows|
    ensures notInserted.Success? ==>
      && written.records == store.records + Filter(BuildTuples(rows, matched).value, accepts)
      && notInserted.value == Filter(BuildTuples(rows, matched).value, Refused(accepts))
    ensures notInserted.Failure? ==>
      && notInserted.error == BuildTuples(rows, matched).error
      && StoppedAt(store, rows, matched, accepts, written, processed)
  {
    written := store;
    var refused: seq<InsertTuple> := [];
    ghost var done: seq<InsertTuple> := [];
    var i := 0;
    while i < |rows|
      invariant 0 <= i <= |rows|
      invariant BuildTuples(rows[..i], matched) == Success(done)
      invariant written.fields == store.fields
      invariant written.records == store.records + Filter(done, accepts)
      invariant refused == Filter(done, Refused(accepts))
    {
      var t := BuildTuple(rows[i], matched);
      if t.Failure? {
        BuildTuplesStopsAt(rows, matched, i);
        return written, Failure(t.error), i;
      }
      InsertStep(rows, matched, accepts, i);
      if accepts(t.value) {
        AppendAssociative(store.records, Filter(done, accepts), [t.value]);
        written := written.(records := written.records + [t.value]);
      } else {
        refused := refused + [t.value];
      }
      done := done + [t.value];
      i := i + 1;
    }
    assert rows[..i] == rows;
    return written, Success(refused), i;
  }

  /** `write_patternstop_fc`: reconcile the schema with `addfcfields`,
      match fields against the returned table, insert every record and
      report the record count and the refused tuples. Without a feature
      class there is nothing to write to. */
  method WritePatternStops(store: Option<Store>, frame: Frame, accepts: InsertTuple -> bool) returns (out: WriteOutcome)
    ensures store.None? ==> out == WriteOutcome(None, Failure(StoreMissing))
    ensures store.Some? ==> out.store.Some? && out.store.value.fields == AddFcFields(store, frame).0.value.fields
    ensures store.Some? ==>
      var f := AddFcFields(store, frame).1.value;
      var built := BuildTuples(f.rows, MatchedFields(AddFcFields(store, frame).0.value, f));
      && (out.report.Success? <==> built.Success?)
      && (built.Success? ==>
            && out.store.value.records == store.value.records + Filter(built.value, accepts)
            && out.report.value.notInserted == Filter(built.value, Refused(accepts))
            && out.report.value.total == |frame.rows|
            && |Filter(built.value, accepts)| + |out.report.value.notInserted| == out.report.value.total
            && multiset(Filter(built.value, accepts)) + multiset(out.report.value.notInserted) == multiset(built.value))
      && (built.Failure? ==> out.report == Failure(built.error))
  {
    var reconciled := AddFcFields(store, frame);
    var updated := reconciled.0;
    var renamed := reconciled.1;
    if updated.None? {
      return WriteOutcome(None, Failure(StoreMissing));
    }
    var rows := renamed.value.rows;
    var matched := MatchedFields(updated.value, renamed.value);
    var written, notInserted, _ := InsertRows(updated.value, rows, matched, accepts);
    if notInserted.Failure? {
      return WriteOutcome(Some(written), Failure(notInserted.error));
    }
    var built := BuildTuples(rows, matched).value;
    BuildTuplesSpec(rows, matched);
    FilterSplit(built, accepts, Refused(accepts));
    return WriteOutcome(Some(written), Success(WriteReport(|rows|, notInserted.value)));
  }

  /** One step of the insert loop: the next record's tuple joins the
      accepted or the refused tuples. */
  lemma InsertStep(rows: seq<Row>, matched: seq<string>, accepts: InsertTuple -> bool, i: int)
    requires 0 <= i < |rows|
    requires BuildTuples(rows[..i], matched).Success?
    requires BuildTuple(rows[i], matched).Success?
    ensures var t := BuildTuple(rows[i], matched).value;
      var before := BuildTuples(rows[..i], matched).value;
      && BuildTuples(rows[..i + 1], matched) == Success(before + [t])
      && Filter(before + [t], accepts) == Filter(before, accepts) + (if accepts(t) then [t] else [])
      && Filter(before + [t], Refused(accepts)) == Filter(before, Refused(accepts)) + (if accepts(t) then [] else [t])
  {
    var t := BuildTuple(rows[i], matched).value;
    var before := BuildTuples(rows[..i], matched).value;
    BuildTuplesSnoc(rows, matched, i);
    FilterAppend(before, [t], accepts);
    FilterAppend(before, [t], Refused(accepts));
  }

  /** One more record extends the tuples by that record's tuple. */
  lemma BuildTuplesSnoc(rows: seq<Row>, matched: seq<string>, i: int)
    requires 0 <= i < |rows|
    requires BuildTuples(rows[..i], matched).Success?
    requires BuildTuple(rows[i], matched).Success?
    ensures BuildTuples(rows[..i + 1], matched)
      == Success(BuildTuples(rows[..i], matched).value + [BuildTuple(rows[i], matched).value])
  {
    assert rows[..i + 1][..i] == rows[..i];
  }

  /** The first record whose tuple fails decides the error of the whole. */
  lemma {:induction false} BuildTuplesStopsAt(rows: seq<Row>, matched: seq<string>, i: int)
    requires 0 <= i < |rows|
    requires BuildTuples(rows[..i], matched).Success?
    requires BuildTuple(rows[i], matched).Failure?
    ensures BuildTuples(rows, matched) == Failure(BuildTuple(rows[i], matched).error)
  {
    var init := rows[..|rows| - 1];
    if i < |rows| - 1 {
      assert init[..i] == rows[..i];
      BuildTuplesStopsAt(init, matched, i);
    } else {
      assert init == rows[..i];
    }
  }

  /** Records that carry every matched field and both coordinates all
      yield tuples. */
  lemma BuildTuplesWellFormed(frame: Frame, matched: seq<string>)
    requires WellFormedFrame(frame)
    requires forall x :: x in matched ==> x in ColumnNames(frame)
    requires StopLon in ColumnNames(frame) && StopLat in ColumnNames(frame)
    ensures BuildTuples(frame.rows, matched).Success?
  {
    forall k | 0 <= k < |frame.rows|
      ensures BuildTuple(frame.rows[k], matched).Success?
    {
      assert frame.rows[k].Keys == set c | c in ColumnNames(frame);
      BuildTupleSpec(frame.rows[k], matched);
    }
    BuildTuplesSpec(frame.rows, matched);
  }

  /** `addfcfields` returns a frame whose records match its columns. */
  lemma AddFcFieldsWellFormed(store: Store, frame: Frame)
    requires WellFormedFrame(frame)
    ensures WellFormedFrame(AddFcFields(Some(store), frame).1.value)
  {
    var added := AddMissingFields(store, frame);
    RenameFrameWellFormed(frame, ConflictNames(GetFields(frame), added));
  }

  /** With unique column names, every column of the table after
      `addfcfields` is a matched field: the whole record is written. */
  lemma MatchedFieldsCoverColumns(store: Store, frame: Frame)
    requires UniqueColumnNames(frame)
    ensures var (s, f) := AddFcFields(Some(store), frame);
      forall i :: 0 <= i < |f.value.columns| ==> f.value.columns[i].name in MatchedFields(s.value, f.value)
  {
    var (s, f) := AddFcFields(Some(store), frame);
    AddFcFieldsCoversColumns(store, frame);
    forall i | 0 <= i < |f.value.columns|
      ensures f.value.columns[i].name in MatchedFields(s.value, f.value)
    {
      assert ColumnNames(f.value)[i] == f.value.columns[i].name;
    }
  }

  /** A well-formed table whose coordinate columns do not conflict with
      the feature class is written without a KeyError. */
  lemma WriteSucceedsWithoutCoordinateConflict(store: Store, frame: Frame, lon: int, lat: int)
    requires WellFormedFrame(frame) && UniqueColumnNames(frame)
    requires 0 <= lon < |frame.columns| && frame.columns[lon].name == StopLon && !HasConflict(GetFields(frame)[lon], store)
    requires 0 <= lat < |frame.columns| && frame.columns[lat].name == StopLat && !HasConflict(GetFields(frame)[lat], store)
    ensures var (s, f) := AddFcFields(Some(store), frame);
      BuildTuples(f.value.rows, MatchedFields(s.value, f.value)).Success?
  {
    var (s, f) := AddFcFields(Some(store), frame);
    AddFcFieldsRenames(store, frame);
    AddFcFieldsWellFormed(store, frame);
    assert ColumnNames(f.value)[lon] == StopLon;
    assert ColumnNames(f.value)[lat] == StopLat;
    BuildTuplesWellFormed(f.value, MatchedFields(s.value, f.value));
  }

  /** When `stop_lon` conflicts with the feature class, the column is
      renamed to `stop_lon_2` but the point is still read from `stop_lon`:
      the first record raises a KeyError and nothing is inserted. */
  lemma CoordinateConflictStopsWrite(store: Store, frame: Frame, lon: int)
    requires WellFormedFrame(frame) && UniqueColumnNames(frame) && |frame.rows| > 0
    requires 0 <= lon < |frame.columns| && frame.columns[lon].name == StopLon && HasConflict(GetFields(frame)[lon], store)
    ensures var (s, f) := AddFcFields(Some(store), frame);
      BuildTuples(f.value.rows, MatchedFields(s.value, f.value)) == Failure(MissingColumn(PatternStopsTable, StopLon))
  {
    var (s, f) := AddFcFields(Some(store), frame);
    var matched := MatchedFields(s.value, f.value);
    var row := f.value.rows[0];
    ConflictingStopLonDropped(store, frame, lon);
    AddFcFieldsWellFormed(store, frame);
    assert row.Keys == set c | c in ColumnNames(f.value);
    CoordinateKeyErrorFirst(row, matched);
    assert f.value.rows[..0] == [];
    BuildTuplesStopsAt(f.value.rows, matched, 0);
  }

  /** The records of the renamed frame no longer hold `stop_lon`. */
  lemma ConflictingStopLonDropped(store: Store, frame: Frame, lon: int)
    requires UniqueColumnNames(frame)
    requires 0 <= lon < |frame.columns| && frame.columns[lon].name == StopLon && HasConflict(GetFields(frame)[lon], store)
    ensures var f := AddFcFields(Some(store), frame).1.value;
      forall r :: 0 <= r < |f.rows| ==> StopLon !in f.rows[r]
  {
    var fields := GetFields(frame);
    var added := AddMissingFields(store, frame);
    var names := ConflictNames(fields, added);
    FreshFieldsNeverConflict(store, frame);
    ConflictFieldsNonEmpty(fields, added);
    assert StopLon in names;
    var f := AddFcFields(Some(store), frame).1.value;
    assert f == RenameFrame(frame, names);
    forall r | 0 <= r < |f.rows|
      ensures StopLon !in f.rows[r]
    {
      RenamedRowLacks(frame.rows[r], names);
    }
  }

  /** A renamed key is gone, and `stop_lon` is no `<name>_2`. */
  lemma RenamedRowLacks(row: Row, names: set<string>)
    requires StopLon in names
    ensures StopLon !in RenameKeys(row, names)
  {
    forall k: string
      ensures k + ConflictSuffix != StopLon
    {
      assert (k + ConflictSuffix)[|k| + 1] == '2';
    }
  }

  /** A record without `stop_lon` fails on `stop_lon` unless a matched
      field is missing first; matched fields are columns, so none is. */
  lemma CoordinateKeyErrorFirst(row: Row, matched: seq<string>)
    requires StopLon !in row
    requires forall x :: x in matched ==> x in row
    ensures BuildTuple(row, matched) == Failure(MissingColumn(PatternStopsTable, StopLon))
  {
    FirstAbsentAfter(matched, [StopLon, StopLat], row.Keys);
  }
}

=== FILE: grouping.dfy ===
/** "First row wins" grouping, shared by the sample trip selection
    (`groupby(...).first()`), the lookup tables (`to_dict2`) and the list of
    distinct sample trips (`unique()`). */
module Grouping {
  import opened Tables

  /** Position `i` holds the first occurrence of its key. */
  predicate IsFirstOccurrence<K(==)>(keys: seq<K>, i: int)
    requires 0 <= i < |keys|
  {
    forall j :: 0 <= j < i ==> keys[j] != keys[i]
  }

  /** The positions below `n` that hold the first occurrence of their key,
      in increasing order. */
  function FirstIndices<K(==)>(keys: seq<K>, n: nat): (r: seq<nat>)
    requires n <= |keys|
    ensures forall a, b :: 0 <= a < b < |r| ==> r[a] < r[b]
    ensures forall k :: 0 <= k < |r| ==> r[k] < n && IsFirstOccurrence(keys, r[k])
    ensures forall i :: 0 <= i < n && IsFirstOccurrence(keys, i) ==> i in r
  {
    if n == 0 then []
    else FirstIndices(keys, n - 1) + (if IsFirstOccurrence(keys, n - 1) then [n - 1] else [])
  }

  /** Every key has a first occurrence at or before any of its positions. */
  lemma {:induction false} FirstOccurrenceExists<K>(keys: seq<K>, i: int)
    requires 0 <= i < |keys|
    ensures exists j :: 0 <= j <= i && keys[j] == keys[i] && IsFirstOccurrence(keys, j)
    decreases i
  {
    if !IsFirstOccurrence(keys, i) {
      var j :| 0 <= j < i && keys[j] == keys[i];
      FirstOccurrenceExists(keys, j);
    }
  }

  /** The first occurrences list each key of the prefix exactly once. */
  lemma FirstIndicesKeys<K>(keys: seq<K>, n: nat)
    requires n <= |keys|
    ensures forall a, b :: 0 <= a < b < |FirstIndices(keys, n)| ==>
      keys[FirstIndices(keys, n)[a]] != keys[FirstIndices(keys, n)[b]]
    ensures forall i :: 0 <= i < n ==>
      exists k :: 0 <= k < |FirstIndices(keys, n)| && keys[FirstIndices(keys, n)[k]] == keys[i]
  {
    var r := FirstIndices(keys, n);
    forall i | 0 <= i < n
      ensures exists k :: 0 <= k < |r| && keys[r[k]] == keys[i]
    {
      FirstOccurrenceExists(keys, i);
      var j :| 0 <= j <= i && keys[j] == keys[i] && IsFirstOccurrence(keys, j);
      var k :| 0 <= k < |r| && r[k] == j;
    }
  }

  /** The same positions, computed in one pass with a set of keys already
      seen, as pandas' hash-based grouping does. */
  method FirstIndicesBySeenSet<K(==)>(keys: seq<K>) returns (r: seq<nat>)
    ensures r == FirstIndices(keys, |keys|)
  {
    var seen: set<K> := {};
    r := [];
    var i := 0;
    while i < |keys|
      invariant 0 <= i <= |keys|
      invariant r == FirstIndices(keys, i)
      invariant seen == set j | 0 <= j < i :: keys[j]
    {
      if keys[i] !in seen {
        r := r + [i];
      }
      seen := seen + {keys[i]};
      i := i + 1;
    }
  }

  /** The values of `key` down the rows, as a set. */
  ghost function KeyValues(rows: seq<Row>, key: string): set<Value> {
    set i | 0 <= i < |rows| :: Cell(rows[i], key)
  }

  /** `to_dict2`: each value of `key` mapped to the first row holding it,
      without the key column itself. */
  function FirstRowPerKey(rows: seq<Row>, key: string): (r: map<Value, Row>)
    ensures r.Keys == KeyValues(rows, key)
    ensures forall v :: v in r ==> key !in r[v]
  {
    if |rows| == 0 then map[]
    else
      var last := rows[|rows| - 1];
      var m := FirstRowPerKey(rows[..|rows| - 1], key);
      KeyValuesSnoc(rows, key);
      if Cell(last, key) in m then m else m[Cell(last, key) := last - {key}]
  }

  lemma KeyValuesSnoc(rows: seq<Row>, key: string)
    requires |rows| > 0
    ensures KeyValues(rows, key) == KeyValues(rows[..|rows| - 1], key) + {Cell(rows[|rows| - 1], key)}
  {
    var prefix := rows[..|rows| - 1];
    forall v | v in KeyValues(rows, key)
      ensures v in KeyValues(prefix, key) + {Cell(rows[|rows| - 1], key)}
    {
      var i :| 0 <= i < |rows| && Cell(rows[i], key) == v;
      if i < |prefix| {
        assert Cell(prefix[i], key) == v;
      }
    }
    forall i | 0 <= i < |prefix|
      ensures Cell(prefix[i], key) in KeyValues(rows, key)
    {
      assert prefix[i] == rows[i];
    }
  }

  /** The entry for the key of a row where that key first occurs is that
      row without the key column. */
  lemma {:induction false} FirstRowPerKeyFirst(rows: seq<Row>, key: string, i: int)
    requires 0 <= i < |rows| && IsFirstOccurrence(Column(rows, key), i)
    ensures Cell(rows[i], key) in FirstRowPerKey(rows, key)
    ensures FirstRowPerKey(rows, key)[Cell(rows[i], key)] == rows[i] - {key}
  {
    var prefix := rows[..|rows| - 1];
    KeyValuesSnoc(rows, key);
    if i < |rows| - 1 {
      assert forall j :: 0 <= j < |prefix| ==> Column(prefix, key)[j] == Column(rows, key)[j];
      FirstRowPerKeyFirst(prefix, key, i);
      assert prefix[i] == rows[i];
    }
  }

  /** Every entry of the lookup is the first row holding its key, less the
      key column. */
  lemma FirstRowPerKeyEntry(rows: seq<Row>, key: string, v: Value)
    requires v in FirstRowPerKey(rows, key)
    ensures exists i ::
      && 0 <= i < |rows| && IsFirstOccurrence(Column(rows, key), i) && Cell(rows[i], key) == v
      && FirstRowPerKey(rows, key)[v] == rows[i] - {key}
  {
    var column := Column(rows, key);
    var i :| 0 <= i < |rows| && Cell(rows[i], key) == v;
    FirstOccurrenceExists(column, i);
    var j :| 0 <= j <= i && column[j] == column[i] && IsFirstOccurrence(column, j);
    FirstRowPerKeyFirst(rows, key, j);
  }
}

=== FILE: pattern_stops.dfy ===
/** The pattern stop resolver (`patternstopslist2`, `createpatternstopsdf`):
    the stop_times rows of every sample trip, in order, each updated with its
    stop's attributes and then with its pattern's route_id and direction_id. */
module PatternStops {
  import opened Tables
  import opened Seqs
  import opened Grouping
  import opened SampleTrips

  /** Columns of the sample table kept for the routes lookup. */
  const LookupColumns := [SampleTripId, RouteId, DirectionId]

  /** `to_dict2(stops, 'stop_id')`. */
  function StopsLookup(stops: Table): map<Value, Row> {
    FirstRowPerKey(stops.rows, StopId)
  }

  /** `to_dict2(trips_df[['sample_trip_id','route_id','direction_id']], 'sample_trip_id')`. */
  function RoutesLookup(samples: Table): map<Value, Row> {
    FirstRowPerKey(LookupRows(samples), SampleTripId)
  }

  function LookupRows(samples: Table): (r: seq<Row>)
    ensures |r| == |samples.rows|
    ensures forall i :: 0 <= i < |r| ==> r[i] == Project(samples.rows[i], LookupColumns)
  {
    MapSeq(samples.rows, (row: Row) => Project(row, LookupColumns))
  }

  lemma LookupRowsColumn(samples: Table)
    ensures Column(LookupRows(samples), SampleTripId) == Column(samples.rows, SampleTripId)
  {
  }

  /** A lookup row less its key is the pattern's route_id and direction_id. */
  lemma LookupRowEntry(row: Row)
    ensures Project(row, LookupColumns) - {SampleTripId} ==
      map[RouteId := Cell(row, RouteId), DirectionId := Cell(row, DirectionId)]
  {
  }

  /** `trips_df['sample_trip_id'].unique()`: distinct sample trips in order of
      first appearance. */
  function SampleTripIds(samples: Table): (r: seq<Value>)
    ensures |r| == |FirstIndices(Column(samples.rows, SampleTripId), |samples.rows|)|
    ensures forall k :: 0 <= k < |r| ==>
      r[k] == Column(samples.rows, SampleTripId)[FirstIndices(Column(samples.rows, SampleTripId), |samples.rows|)[k]]
  {
    var column := Column(samples.rows, SampleTripId);
    var idx := FirstIndices(column, |column|);
    seq(|idx|, k requires 0 <= k < |idx| => column[idx[k]])
  }

  /** The sample trips are listed once each, and all of them are listed. */
  lemma SampleTripIdsDistinct(samples: Table)
    ensures var r := SampleTripIds(samples);
      && (forall a, b :: 0 <= a < b < |r| ==> r[a] != r[b])
      && (forall v :: v in r <==> v in Column(samples.rows, SampleTripId))
  {
    var column := Column(samples.rows, SampleTripId);
    var idx := FirstIndices(column, |column|);
    var r := SampleTripIds(samples);
    FirstIndicesKeys(column, |column|);
    forall v | v in column
      ensures v in r
    {
      var i :| 0 <= i < |column| && column[i] == v;
      var k :| 0 <= k < |idx| && column[idx[k]] == column[i];
      assert r[k] == v;
    }
  }

  /** `stop_times.loc[stop_times['trip_id'] == trip]`, in table order. */
  function TripStopTimes(stopTimes: seq<Row>, trip: Value): seq<Row> {
    Filter(stopTimes, (row: Row) => Cell(row, TripId) == trip)
  }

  /** The entry of `lookup` for `key`; the empty row when there is none. */
  function Entry(lookup: map<Value, Row>, key: Value): Row {
    if key in lookup then lookup[key] else map[]
  }

  /** The row after both `update` calls: the stop's attributes first, then
      the pattern's attributes, each overwriting same-named fields. The
      pattern is looked up by the trip_id of the already updated row. */
  function Merge(row: Row, stops: map<Value, Row>, patterns: map<Value, Row>): Row {
    var withStop := row + Entry(stops, Cell(row, StopId));
    withStop + Entry(patterns, Cell(withStop, TripId))
  }

  /** One iteration of the inner loop, with its two dictionary lookups. */
  function Enrich(row: Row, stops: map<Value, Row>, patterns: map<Value, Row>): (r: Result<Row>)
    ensures r.Success? ==> r.value == Merge(row, stops, patterns)
    ensures r.Success? <==>
      && StopId in row && row[StopId] in stops
      && TripId in row + stops[row[StopId]]
      && (row + stops[row[StopId]])[TripId] in patterns
  {
    if StopId !in row then Failure(MissingColumn("stop_times", StopId))
    else if row[StopId] !in stops then Failure(UnknownStop(row[StopId]))
    else
      var withStop := row + stops[row[StopId]];
      if TripId !in withStop then Failure(MissingColumn("stop_times", TripId))
      else if withStop[TripId] !in patterns then Failure(UnknownTrip(withStop[TripId]))
      else Success(withStop + patterns[withStop[TripId]])
  }

  /** The inner loop over one trip's rows: all rows enriched in order, or
      the failure of the first row that cannot be. */
  function ResolveRows(rows: seq<Row>, stops: map<Value, Row>, patterns: map<Value, Row>): (r: Result<seq<Row>>)
    ensures r.Success? <==> forall i :: 0 <= i < |rows| ==> Enrich(rows[i], stops, patterns).Success?
    ensures r.Success? ==> r.value == MapSeq(rows, (row: Row) => Merge(row, stops, patterns))
    ensures r.Failure? ==> exists i :: 0 <= i < |rows| && Enrich(rows[i], stops, patterns) == Failure(r.error)
  {
    if |rows| == 0 then Success([])
    else
      var head :- Enrich(rows[0], stops, patterns);
      var tail :- ResolveRows(rows[1..], stops, patterns);
      assert forall i :: 0 <= i < |tail| ==> tail[i] == Merge(rows[i + 1], stops, patterns);
      assert [head] + tail == MapSeq(rows, (row: Row) => Merge(row, stops, patterns));
      Success([head] + tail)
  }

  /** The rows one trip contributes when every lookup succeeds. */
  function TripRun(trip: Value, stopTimes: seq<Row>, stops: map<Value, Row>, patterns: map<Value, Row>): seq<Row> {
    MapSeq(TripStopTimes(stopTimes, trip), (row: Row) => Merge(row, stops, patterns))
  }

  function TripRuns(trips: seq<Value>, stopTimes: seq<Row>, stops: map<Value, Row>, patterns: map<Value, Row>)
    : (r: seq<seq<Row>>)
    ensures |r| == |trips|
    ensures forall k :: 0 <= k < |trips| ==> r[k] == TripRun(trips[k], stopTimes, stops, patterns)
  {
    MapSeq(trips, (t: Value) => TripRun(t, stopTimes, stops, patterns))
  }

  /** The outer loop: the resolved rows of every trip in `trips`,
      concatenated in that order. */
  function ResolveTrips(trips: seq<Value>, stopTimes: seq<Row>, stops: map<Value, Row>, patterns: map<Value, Row>)
    : (r: Result<seq<Row>>)
    ensures r.Success? <==>
      forall k, i :: 0 <= k < |trips| && 0 <= i < |TripStopTimes(stopTimes, trips[k])| ==>
        Enrich(TripStopTimes(stopTimes, trips[k])[i], stops, patterns).Success?
    ensures r.Success? ==> r.value == Flatten(TripRuns(trips, stopTimes, stops, patterns))
    ensures r.Failure? ==> exists k, i ::
      && 0 <= k < |trips| && 0 <= i < |TripStopTimes(stopTimes, trips[k])|
      && Enrich(TripStopTimes(stopTimes, trips[k])[i], stops, patterns) == Failure(r.error)
  {
    if |trips| == 0 then Success([])
    else
      var head :- ResolveRows(TripStopTimes(stopTimes, trips[0]), stops, patterns);
      var tail :- ResolveTrips(trips[1..], stopTimes, stops, patterns);
      assert TripRuns(trips, stopTimes, stops, patterns)[1..] == TripRuns(trips[1..], stopTimes, stops, patterns);
      Success(head + tail)
  }

  /** `patternstopslist2` on already loaded `stop_times` and `stops` tables
      and the sample table. */
  function ResolvePatternStops(stopTimes: Table, stops: Table, samples: Table): (r: Result<seq<Row>>)
    ensures StopId !in stops.columns ==> r == Failure(MissingColumn("stops", StopId))
    ensures StopId in stops.columns && (exists c :: c in LookupColumns && c !in samples.columns) ==>
      r.Failure? && r.error.MissingColumn? && r.error.table == "trips"
    ensures && StopId in stops.columns && (forall c :: c in LookupColumns ==> c in samples.columns)
            && |SampleTripIds(samples)| > 0 && TripId !in stopTimes.columns ==>
      r == Failure(MissingColumn("stop_times", TripId))
  {
    if StopId !in stops.columns then Failure(MissingColumn("stops", StopId))
    else
      match FirstAbsent(LookupColumns, set c | c in samples.columns)
      case Some(c) => Failure(MissingColumn("trips", c))
      case None =>
        var trips := SampleTripIds(samples);
        if |trips| > 0 && TripId !in stopTimes.columns then Failure(MissingColumn("stop_times", TripId))
        else ResolveTrips(trips, stopTimes.rows, StopsLookup(stops), RoutesLookup(samples))
  }

  /** `createpatternstopsdf` on the four loaded GTFS tables. */
  function CreatePatternStops(trips: Table, routes: Table, stops: Table, stopTimes: Table): (r: Result<seq<Row>>)
    ensures SelectSamplePatterns(trips, routes).Failure? ==> r == Failure(SelectSamplePatterns(trips, routes).error)
    ensures SelectSamplePatterns(trips, routes).Success? ==>
      r == ResolvePatternStops(stopTimes, stops, SelectSamplePatterns(trips, routes).value)
  {
    var samples :- SelectSamplePatterns(trips, routes);
    ResolvePatternStops(stopTimes, stops, samples)
  }

  /** The stop lookup holds no trip_id when the stops table has no such
      column, so it cannot redirect the pattern lookup. */
  lemma StopsLookupWithoutTrip(stops: Table, v: Value)
    requires stops.WellFormed() && TripId !in stops.columns
    requires v in StopsLookup(stops)
    ensures TripId !in StopsLookup(stops)[v]
  {
    FirstRowPerKeyEntry(stops.rows, StopId, v);
  }

  /** The pattern lookup has an entry for exactly the sample trips, and the
      entry for a trip is the route_id and direction_id of the first sample
      row naming it. */
  lemma RoutesLookupEntry(samples: Table, v: Value)
    ensures v in RoutesLookup(samples) <==> v in Column(samples.rows, SampleTripId)
    ensures v in RoutesLookup(samples) ==> exists i ::
      && 0 <= i < |samples.rows| && IsFirstOccurrence(Column(samples.rows, SampleTripId), i)
      && Cell(samples.rows[i], SampleTripId) == v
      && RoutesLookup(samples)[v] == map[RouteId := Cell(samples.rows[i], RouteId),
                                         DirectionId := Cell(samples.rows[i], DirectionId)]
  {
    var projected := LookupRows(samples);
    LookupRowsColumn(samples);
    if v in RoutesLookup(samples) {
      FirstRowPerKeyEntry(projected, SampleTripId, v);
      var i :| && 0 <= i < |projected| && IsFirstOccurrence(Column(projected, SampleTripId), i)
               && Cell(projected[i], SampleTripId) == v
               && RoutesLookup(samples)[v] == projected[i] - {SampleTripId};
      LookupRowEntry(samples.rows[i]);
      assert Cell(samples.rows[i], SampleTripId) == v;
    }
    if v in Column(samples.rows, SampleTripId) {
      var i :| 0 <= i < |samples.rows| && Column(samples.rows, SampleTripId)[i] == v;
      assert Cell(projected[i], SampleTripId) == v;
    }
  }

  /** What the two updates do to a row: route_id and direction_id come from
      the sample pattern, the stop's attributes come next, and every other
      field keeps the stop_times value. */
  lemma MergeCell(row: Row, stops: Table, samples: Table, c: string)
    requires stops.WellFormed() && TripId !in stops.columns
    requires StopId in row && row[StopId] in StopsLookup(stops)
    requires Cell(row, TripId) in RoutesLookup(samples)
    ensures var stop := StopsLookup(stops)[row[StopId]];
      var pattern := RoutesLookup(samples)[Cell(row, TripId)];
      Cell(Merge(row, StopsLookup(stops), RoutesLookup(samples)), c) ==
        if c == RouteId || c == DirectionId then Cell(pattern, c)
        else if c in stop then stop[c]
        else Cell(row, c)
  {
    StopsLookupWithoutTrip(stops, row[StopId]);
    RoutesLookupEntry(samples, Cell(row, TripId));
  }

  /** Enriching a row keeps its trip_id. */
  lemma MergeKeepsTrip(row: Row, stops: Table, samples: Table)
    requires stops.WellFormed() && TripId !in stops.columns
    ensures Cell(Merge(row, StopsLookup(stops), RoutesLookup(samples)), TripId) == Cell(row, TripId)
  {
    var stopsL := StopsLookup(stops);
    if Cell(row, StopId) in stopsL {
      StopsLookupWithoutTrip(stops, Cell(row, StopId));
    }
    var withStop := row + Entry(stopsL, Cell(row, StopId));
    if Cell(withStop, TripId) in RoutesLookup(samples) {
      RoutesLookupEntry(samples, Cell(withStop, TripId));
    }
  }

  /** The rows of a successful resolution, before the result is wrapped. */
  lemma ResolvePatternStopsRuns(stopTimes: Table, stops: Table, samples: Table)
    requires ResolvePatternStops(stopTimes, stops, samples).Success?
    ensures ResolvePatternStops(stopTimes, stops, samples).value ==
      Flatten(TripRuns(SampleTripIds(samples), stopTimes.rows, StopsLookup(stops), RoutesLookup(samples)))
  {
  }

  /** Every row of a trip's run carries that trip's id. */
  lemma TripRunTrip(t: Value, stopTimes: seq<Row>, stops: Table, samples: Table)
    requires stops.WellFormed() && TripId !in stops.columns
    ensures forall i :: 0 <= i < |TripRun(t, stopTimes, StopsLookup(stops), RoutesLookup(samples))| ==>
      Cell(TripRun(t, stopTimes, StopsLookup(stops), RoutesLookup(samples))[i], TripId) == t
  {
    var rows := TripStopTimes(stopTimes, t);
    forall i | 0 <= i < |rows| {
      MergeKeepsTrip(rows[i], stops, samples);
    }
  }

  /** Picking one trip's rows out of runs that each hold a single trip. */
  lemma FilterTripRuns(trips: seq<Value>, runs: seq<seq<Row>>, t: Value)
    requires |trips| == |runs|
    requires forall a, b :: 0 <= a < b < |trips| ==> trips[a] != trips[b]
    requires forall k, i :: 0 <= k < |runs| && 0 <= i < |runs[k]| ==> Cell(runs[k][i], TripId) == trips[k]
    ensures forall k :: 0 <= k < |trips| && trips[k] == t ==>
      Filter(Flatten(runs), (row: Row) => Cell(row, TripId) == t) == runs[k]
    ensures t !in trips ==> Filter(Flatten(runs), (row: Row) => Cell(row, TripId) == t) == []
  {
    var p := (row: Row) => Cell(row, TripId) == t;
    FilterFlatten(runs, p);
    var filtered := MapSeq(runs, (s: seq<Row>) => Filter(s, p));
    forall k | 0 <= k < |runs|
      ensures filtered[k] == if trips[k] == t then runs[k] else []
    {
      if trips[k] == t {
        FilterAll(runs[k], p);
      } else {
        FilterNone(runs[k], p);
      }
    }
    if t in trips {
      var k :| 0 <= k < |trips| && trips[k] == t;
      FlattenOneRun(filtered, k);
    } else {
      FlattenEmptyRuns(filtered);
    }
  }

  /** The output rows of one sample trip are exactly that trip's stop_times
      rows, in their original order, each enriched; a trip that is not a
      sample trip contributes nothing. A sample trip without stop_times rows
      contributes an empty run. */
  lemma PatternStopsOfTrip(stopTimes: Table, stops: Table, samples: Table, t: Value)
    requires ResolvePatternStops(stopTimes, stops, samples).Success?
    requires stops.WellFormed() && TripId !in stops.columns
    ensures Filter(ResolvePatternStops(stopTimes, stops, samples).value, (row: Row) => Cell(row, TripId) == t) ==
      if t in SampleTripIds(samples) then TripRun(t, stopTimes.rows, StopsLookup(stops), RoutesLookup(samples))
      else []
  {
    var trips := SampleTripIds(samples);
    var runs := TripRuns(trips, stopTimes.rows, StopsLookup(stops), RoutesLookup(samples));
    ResolvePatternStopsRuns(stopTimes, stops, samples);
    SampleTripIdsDistinct(samples);
    forall k | 0 <= k < |runs| {
      TripRunTrip(trips[k], stopTimes.rows, stops, samples);
    }
    FilterTripRuns(trips, runs, t);
  }

  /** The output has one row per stop_times row of each sample trip: the sum
      of the per-trip counts. */
  lemma PatternStopsCount(stopTimes: Table, stops: Table, samples: Table)
    requires ResolvePatternStops(stopTimes, stops, samples).Success?
    ensures |ResolvePatternStops(stopTimes, stops, samples).value| ==
      TotalLength(MapSeq(SampleTripIds(samples), (t: Value) => TripStopTimes(stopTimes.rows, t)))
  {
    var trips := SampleTripIds(samples);
    var runs := TripRuns(trips, stopTimes.rows, StopsLookup(stops), RoutesLookup(samples));
    ResolvePatternStopsRuns(stopTimes, stops, samples);
    FlattenLength(runs);
    TotalLengthPointwise(runs, MapSeq(trips, (t: Value) => TripStopTimes(stopTimes.rows, t)));
  }

  /** For a stop_times row of a sample trip, the only lookup that can fail
      is the stop lookup. */
  lemma EnrichSelectedRow(row: Row, stops: Table, samples: Table)
    requires stops.WellFormed() && TripId !in stops.columns
    requires StopId in row && TripId in row
    requires row[TripId] in Column(samples.rows, SampleTripId)
    ensures Enrich(row, StopsLookup(stops), RoutesLookup(samples)).Success? <==> row[StopId] in StopsLookup(stops)
    ensures Enrich(row, StopsLookup(stops), RoutesLookup(samples)).Failure? ==>
      Enrich(row, StopsLookup(stops), RoutesLookup(samples)).error == UnknownStop(row[StopId])
  {
    if row[StopId] in StopsLookup(stops) {
      StopsLookupWithoutTrip(stops, row[StopId]);
    }
    RoutesLookupEntry(samples, row[TripId]);
  }

  /** The rows the outer loop visits: the stop_times rows of sample trips. */
  ghost predicate Visited(trips: seq<Value>, stopTimes: seq<Row>, row: Row) {
    exists k, i ::
      && 0 <= k < |trips| && 0 <= i < |TripStopTimes(stopTimes, trips[k])|
      && TripStopTimes(stopTimes, trips[k])[i] == row
  }

  lemma VisitedRows(trips: seq<Value>, stopTimes: seq<Row>, row: Row)
    ensures Visited(trips, stopTimes, row) <==> row in stopTimes && Cell(row, TripId) in trips
  {
    if row in stopTimes && Cell(row, TripId) in trips {
      var k :| 0 <= k < |trips| && trips[k] == Cell(row, TripId);
      assert row in TripStopTimes(stopTimes, trips[k]);
    }
  }

  /** On well-formed tables, a visited row fails only on an unknown stop. */
  lemma VisitedRowEnrich(stopTimes: Table, stops: Table, samples: Table, row: Row)
    requires TripId in stopTimes.columns && StopId in stopTimes.columns && stopTimes.WellFormed()
    requires stops.WellFormed() && TripId !in stops.columns
    requires row in stopTimes.rows && Cell(row, TripId) in SampleTripIds(samples)
    ensures Enrich(row, StopsLookup(stops), RoutesLookup(samples)).Success? <==> Cell(row, StopId) in StopsLookup(stops)
    ensures Enrich(row, StopsLookup(stops), RoutesLookup(samples)).Failure? ==>
      Enrich(row, StopsLookup(stops), RoutesLookup(samples)).error == UnknownStop(Cell(row, StopId))
  {
    SampleTripIdsDistinct(samples);
    var j :| 0 <= j < |stopTimes.rows| && stopTimes.rows[j] == row;
    assert row.Keys == set c | c in stopTimes.columns;
    EnrichSelectedRow(row, stops, samples);
  }

  /** On well-formed GTFS tables the resolver fails exactly when a
      stop_times row of a sample trip names a stop_id absent from stops, and
      it then reports one such stop_id: a missing stop is a hard failure,
      never a skipped row. */
  lemma PatternStopsFailOnUnknownStop(stopTimes: Table, stops: Table, samples: Table)
    requires StopId in stops.columns && forall c :: c in LookupColumns ==> c in samples.columns
    requires TripId in stopTimes.columns && StopId in stopTimes.columns && stopTimes.WellFormed()
    requires stops.WellFormed() && TripId !in stops.columns
    ensures var r := ResolvePatternStops(stopTimes, stops, samples);
      var trips := SampleTripIds(samples);
      && (r.Success? <==> forall row :: row in stopTimes.rows && Cell(row, TripId) in trips ==>
            Cell(row, StopId) in StopsLookup(stops))
      && (r.Failure? ==>
            && r.error.UnknownStop? && r.error.stopId !in StopsLookup(stops)
            && exists row :: row in stopTimes.rows && Cell(row, TripId) in trips && Cell(row, StopId) == r.error.stopId)
  {
    var trips := SampleTripIds(samples);
    var stopsL := StopsLookup(stops);
    var routesL := RoutesLookup(samples);
    var r := ResolveTrips(trips, stopTimes.rows, stopsL, routesL);
    assert ResolvePatternStops(stopTimes, stops, samples) == r;
    forall row | row in stopTimes.rows && Cell(row, TripId) in trips
      ensures Visited(trips, stopTimes.rows, row)
      ensures Enrich(row, stopsL, routesL).Success? <==> Cell(row, StopId) in stopsL
      ensures Enrich(row, stopsL, routesL).Failure? ==> Enrich(row, stopsL, routesL).error == UnknownStop(Cell(row, StopId))
    {
      VisitedRows(trips, stopTimes.rows, row);
      VisitedRowEnrich(stopTimes, stops, samples, row);
    }
    forall k, i | 0 <= k < |trips| && 0 <= i < |TripStopTimes(stopTimes.rows, trips[k])|
      ensures TripStopTimes(stopTimes.rows, trips[k])[i] in stopTimes.rows
      ensures Cell(TripStopTimes(stopTimes.rows, trips[k])[i], TripId) in trips
    {
    }
  }
}

=== FILE: sample_trips.dfy ===
/** The sample trip selector (`createtripslist`): one representative trip per
    (shape_id, route_id, direction_id) pattern, left-joined with its route's
    attributes, with three trip columns renamed to `sample_*`. */
module SampleTrips {
  import opened Tables
  import opened Seqs
  import opened Grouping

  /** The grouping key of a trip. */
  datatype PatternKey = PatternKey(shape: Value, route: Value, direction: Value)

  const GroupColumns := [ShapeId, RouteId, DirectionId]

  /** Trip columns renamed after the join, and their new names. */
  const SampleRenames: map<string, string> :=
    map[ServiceId := SampleServiceId, TripId := SampleTripId, TripHeadsign := SampleHeadsign]

  function KeyOf(row: Row): PatternKey {
    PatternKey(Cell(row, ShapeId), Cell(row, RouteId), Cell(row, DirectionId))
  }

  function PatternKeys(rows: seq<Row>): (r: seq<PatternKey>)
    ensures |r| == |rows|
    ensures forall i :: 0 <= i < |rows| ==> r[i] == KeyOf(rows[i])
  {
    MapSeq(rows, KeyOf)
  }

  /** `groupby(['shape_id','route_id','direction_id']).first()`: the first
      trip of every pattern, in table order. */
  function FirstTripPerPattern(trips: seq<Row>): (r: seq<Row>)
    ensures |r| == |FirstIndices(PatternKeys(trips), |trips|)|
    ensures forall k :: 0 <= k < |r| ==> r[k] == trips[FirstIndices(PatternKeys(trips), |trips|)[k]]
  {
    var idx := FirstIndices(PatternKeys(trips), |trips|);
    seq(|idx|, k requires 0 <= k < |idx| => trips[idx[k]])
  }

  /** The selected trips have pairwise different patterns. */
  lemma FirstTripPerPatternDistinct(trips: seq<Row>)
    ensures forall a, b :: 0 <= a < b < |FirstTripPerPattern(trips)| ==>
      KeyOf(FirstTripPerPattern(trips)[a]) != KeyOf(FirstTripPerPattern(trips)[b])
  {
    var r := FirstTripPerPattern(trips);
    var keys := PatternKeys(trips);
    var idx := FirstIndices(keys, |trips|);
    FirstIndicesKeys(keys, |trips|);
    forall a, b | 0 <= a < b < |r|
      ensures KeyOf(r[a]) != KeyOf(r[b])
    {
      assert KeyOf(r[a]) == keys[idx[a]] && KeyOf(r[b]) == keys[idx[b]];
    }
  }

  /** Every pattern of the trips table is among the selected trips. */
  lemma FirstTripPerPatternCovers(trips: seq<Row>, i: int)
    requires 0 <= i < |trips|
    ensures exists k ::
      0 <= k < |FirstTripPerPattern(trips)| && KeyOf(FirstTripPerPattern(trips)[k]) == KeyOf(trips[i])
  {
    var r := FirstTripPerPattern(trips);
    var keys := PatternKeys(trips);
    var idx := FirstIndices(keys, |trips|);
    FirstOccurrenceExists(keys, i);
    var j :| 0 <= j <= i && keys[j] == keys[i] && IsFirstOccurrence(keys, j);
    var k :| 0 <= k < |idx| && idx[k] == j;
    assert KeyOf(r[k]) == keys[j];
  }

  /** Each selected trip is the first trip of its pattern. */
  lemma FirstTripPerPatternIsFirst(trips: seq<Row>, k: int)
    requires 0 <= k < |FirstTripPerPattern(trips)|
    ensures exists i ::
      0 <= i < |trips| && IsFirstOccurrence(PatternKeys(trips), i) && FirstTripPerPattern(trips)[k] == trips[i]
  {
    var idx := FirstIndices(PatternKeys(trips), |trips|);
    assert IsFirstOccurrence(PatternKeys(trips), idx[k]);
  }

  /** Column order after `reset_index()`: the group keys, then the other
      trip columns. */
  function GroupedColumns(tripColumns: seq<string>): seq<string> {
    GroupColumns + Filter(tripColumns, c => c !in GroupColumns)
  }

  /** The route columns a join adds: all but the join key. */
  function RouteAttributeColumns(routeColumns: seq<string>): (r: seq<string>)
    ensures forall c :: c in r <==> c in routeColumns && c != RouteId
  {
    Filter(routeColumns, c => c != RouteId)
  }

  function RenameSampleColumn(c: string): string {
    if c in SampleRenames then SampleRenames[c] else c
  }

  /** `rename(columns={...})` applied to one row. */
  function RenameSample(row: Row): Row {
    (map c | c in row && c !in SampleRenames :: row[c])
    + (map c | c in row && c in SampleRenames :: SampleRenames[c] := row[c])
  }

  /** The output row for first trip `s` joined with route row `route`
      (the empty row when no route matches, giving nulls). */
  function SampleRow(s: Row, route: Row, attributes: seq<string>): Row {
    RenameSample(s + Project(route, attributes))
  }

  /** The routes rows whose route_id equals the trip's. */
  function RouteMatches(routes: seq<Row>, s: Row): seq<Row> {
    Filter(routes, (m: Row) => Cell(m, RouteId) == Cell(s, RouteId))
  }

  /** Left join of one trip: a row per matching route, or one row with null
      route attributes when there is none. */
  function JoinRoute(s: Row, routes: seq<Row>, attributes: seq<string>): (r: seq<Row>)
    ensures |r| >= 1
  {
    var matches := RouteMatches(routes, s);
    if |matches| == 0 then [SampleRow(s, map[], attributes)]
    else MapSeq(matches, (m: Row) => SampleRow(s, m, attributes))
  }

  /** The left join of a trip whose route_id no route has: one row, with
      null route attributes. */
  lemma JoinRouteUnmatched(s: Row, routes: seq<Row>, attributes: seq<string>)
    requires forall m :: m in routes ==> Cell(m, RouteId) != Cell(s, RouteId)
    ensures JoinRoute(s, routes, attributes) == [SampleRow(s, map[], attributes)]
  {
    FilterNone(routes, (m: Row) => Cell(m, RouteId) == Cell(s, RouteId));
  }

  /** The left join of a trip whose route_id some route has: one row per
      matching route, and the rows are exactly the trip joined with each
      such route. */
  lemma JoinRouteMatched(s: Row, routes: seq<Row>, attributes: seq<string>)
    requires exists m :: m in routes && Cell(m, RouteId) == Cell(s, RouteId)
    ensures |JoinRoute(s, routes, attributes)| == |RouteMatches(routes, s)|
    ensures forall x :: x in JoinRoute(s, routes, attributes) <==>
      exists m :: m in routes && Cell(m, RouteId) == Cell(s, RouteId) && x == SampleRow(s, m, attributes)
  {
    var m :| m in routes && Cell(m, RouteId) == Cell(s, RouteId);
    var i :| 0 <= i < |routes| && routes[i] == m;
    assert m in RouteMatches(routes, s);
    forall x | x in JoinRoute(s, routes, attributes)
      ensures exists m :: m in routes && Cell(m, RouteId) == Cell(s, RouteId) && x == SampleRow(s, m, attributes)
    {
      JoinedRowFromRoute(s, routes, attributes, x);
    }
    forall m | m in routes && Cell(m, RouteId) == Cell(s, RouteId)
      ensures SampleRow(s, m, attributes) in JoinRoute(s, routes, attributes)
    {
      MatchingRouteJoined(s, routes, attributes, m);
    }
  }

  lemma JoinedRowFromRoute(s: Row, routes: seq<Row>, attributes: seq<string>, x: Row)
    requires |RouteMatches(routes, s)| > 0 && x in JoinRoute(s, routes, attributes)
    ensures exists m :: m in routes && Cell(m, RouteId) == Cell(s, RouteId) && x == SampleRow(s, m, attributes)
  {
    var matches := RouteMatches(routes, s);
    var r := JoinRoute(s, routes, attributes);
    var k :| 0 <= k < |r| && r[k] == x;
    assert matches[k] in routes && x == SampleRow(s, matches[k], attributes);
  }

  lemma MatchingRouteJoined(s: Row, routes: seq<Row>, attributes: seq<string>, m: Row)
    requires m in routes && Cell(m, RouteId) == Cell(s, RouteId)
    ensures SampleRow(s, m, attributes) in JoinRoute(s, routes, attributes)
  {
    var matches := RouteMatches(routes, s);
    var i :| 0 <= i < |routes| && routes[i] == m;
    assert m in matches;
    var k :| 0 <= k < |matches| && matches[k] == m;
    assert JoinRoute(s, routes, attributes)[k] == SampleRow(s, m, attributes);
  }

  /** `createtripslist` on already loaded `trips` and `routes` tables. */
  function SelectSamplePatterns(trips: Table, routes: Table): (r: Result<Table>)
    ensures r.Failure? <==>
      || (exists c :: c in GroupColumns && c !in trips.columns)
      || RouteId !in routes.columns
      || (exists c :: c in routes.columns && c != RouteId && c in trips.columns)
    ensures r.Failure? && (exists c :: c in GroupColumns && c !in trips.columns) ==>
      r.error.MissingColumn? && r.error.table == "trips"
  {
    match FirstAbsent(GroupColumns, set c | c in trips.columns)
    case Some(c) => Failure(MissingColumn("trips", c))
    case None =>
      if RouteId !in routes.columns then Failure(MissingColumn("routes", RouteId))
      else
        var attributes := RouteAttributeColumns(routes.columns);
        var overlap := Filter(attributes, c => c in trips.columns);
        if |overlap| > 0 then
          assert overlap[0] in attributes;
          Failure(ColumnOverlap(overlap))
        else
          var firsts := FirstTripPerPattern(trips.rows);
          Success(Table(
            MapSeq(GroupedColumns(trips.columns) + attributes, RenameSampleColumn),
            JoinRoutes(firsts, routes.rows, attributes)))
  }

  /** Renaming leaves every column other than the renamed ones and their
      new names untouched. */
  lemma RenameSampleKeeps(row: Row, c: string)
    requires c !in SampleRenames && c !in SampleRenames.Values
    ensures Cell(RenameSample(row), c) == Cell(row, c)
  {
  }

  /** Where each column of a renamed row comes from, for a row that does not
      already hold one of the `sample_*` names. */
  lemma RenameSampleCell(row: Row, c: string)
    requires forall t :: t in SampleRenames.Values ==> t !in row
    ensures Cell(RenameSample(row), c) ==
      if c == SampleTripId then Cell(row, TripId)
      else if c == SampleServiceId then Cell(row, ServiceId)
      else if c == SampleHeadsign then Cell(row, TripHeadsign)
      else if c in SampleRenames then Null
      else Cell(row, c)
  {
    var r := RenameSample(row);
    if c == SampleTripId {
      RenamedCell(row, TripId);
    } else if c == SampleServiceId {
      RenamedCell(row, ServiceId);
    } else if c == SampleHeadsign {
      RenamedCell(row, TripHeadsign);
    } else if c in SampleRenames {
      assert c !in r;
    } else {
      assert c !in SampleRenames.Values;
      RenameSampleKeeps(row, c);
    }
  }

  /** A renamed column's value appears under its new name, and only there. */
  lemma RenamedCell(row: Row, name: string)
    requires name in SampleRenames
    requires forall t :: t in SampleRenames.Values ==> t !in row
    ensures Cell(RenameSample(row), SampleRenames[name]) == Cell(row, name)
  {
    var r := RenameSample(row);
    var c := SampleRenames[name];
    assert forall k :: k in SampleRenames && SampleRenames[k] == c ==> k == name;
    if name in row {
      assert c in r;
    } else {
      assert c !in r;
    }
  }

  /** Joining route attributes and renaming keep the trip's pattern. */
  lemma SampleRowKey(s: Row, route: Row, attributes: seq<string>)
    requires forall c :: c in GroupColumns ==> c !in attributes
    ensures KeyOf(SampleRow(s, route, attributes)) == KeyOf(s)
  {
    RenameSampleKeepsKey(s + Project(route, attributes));
    JoinKeepsKey(s, route, attributes);
  }

  lemma RenameSampleKeepsKey(row: Row)
    ensures KeyOf(RenameSample(row)) == KeyOf(row)
  {
    RenameSampleKeeps(row, ShapeId);
    RenameSampleKeeps(row, RouteId);
    RenameSampleKeeps(row, DirectionId);
  }

  /** The join adds only route attributes, so the grouping columns keep the
      trip's values. */
  lemma JoinKeepsKey(s: Row, route: Row, attributes: seq<string>)
    requires forall c :: c in GroupColumns ==> c !in attributes
    ensures KeyOf(s + Project(route, attributes)) == KeyOf(s)
  {
    assert ShapeId in GroupColumns && RouteId in GroupColumns && DirectionId in GroupColumns;
  }

  lemma JoinRouteKeys(s: Row, routes: seq<Row>, attributes: seq<string>)
    requires forall c :: c in GroupColumns ==> c !in attributes
    ensures forall x :: x in JoinRoute(s, routes, attributes) ==> KeyOf(x) == KeyOf(s)
  {
    forall m: Row {
      SampleRowKey(s, m, attributes);
    }
  }

  /** The left join of the first trips with the routes table. */
  function JoinRoutes(firsts: seq<Row>, routes: seq<Row>, attributes: seq<string>): seq<Row> {
    Flatten(MapSeq(firsts, (s: Row) => JoinRoute(s, routes, attributes)))
  }

  /** The rows of a successful selection, before the result is wrapped. */
  function SampleRows(trips: Table, routes: Table): seq<Row> {
    JoinRoutes(FirstTripPerPattern(trips.rows), routes.rows, RouteAttributeColumns(routes.columns))
  }

  lemma SelectSamplePatternsRows(trips: Table, routes: Table)
    requires SelectSamplePatterns(trips, routes).Success?
    ensures SelectSamplePatterns(trips, routes).value.rows == SampleRows(trips, routes)
    ensures forall c :: c in GroupColumns ==> c !in RouteAttributeColumns(routes.columns)
  {
  }

  /** Every pattern of the trips table has a sample row, and every sample
      row belongs to a pattern of the trips table. */
  lemma SamplePatternsCoverTrips(trips: Table, routes: Table)
    requires SelectSamplePatterns(trips, routes).Success?
    ensures var out := SelectSamplePatterns(trips, routes).value.rows;
      && (forall i :: 0 <= i < |trips.rows| ==> exists x :: x in out && KeyOf(x) == KeyOf(trips.rows[i]))
      && (forall x :: x in out ==> exists i :: 0 <= i < |trips.rows| && KeyOf(x) == KeyOf(trips.rows[i]))
  {
    SelectSamplePatternsRows(trips, routes);
    var attributes := RouteAttributeColumns(routes.columns);
    var firsts := FirstTripPerPattern(trips.rows);
    var runs := MapSeq(firsts, (s: Row) => JoinRoute(s, routes.rows, attributes));
    var out := Flatten(runs);
    assert out == SelectSamplePatterns(trips, routes).value.rows;
    forall i | 0 <= i < |trips.rows|
      ensures exists x :: x in out && KeyOf(x) == KeyOf(trips.rows[i])
    {
      FirstTripPerPatternCovers(trips.rows, i);
      var k :| 0 <= k < |firsts| && KeyOf(firsts[k]) == KeyOf(trips.rows[i]);
      var x := runs[k][0];
      JoinRouteKeys(firsts[k], routes.rows, attributes);
      FlattenMember(runs, x);
    }
    forall x | x in out
      ensures exists i :: 0 <= i < |trips.rows| && KeyOf(x) == KeyOf(trips.rows[i])
    {
      FlattenMember(runs, x);
      var k :| 0 <= k < |runs| && x in runs[k];
      JoinRouteKeys(firsts[k], routes.rows, attributes);
      FirstTripPerPatternIsFirst(trips.rows, k);
    }
  }

  /** `route_id` identifies at most one row of the routes table. */
  ghost predicate UniqueRouteIds(routes: seq<Row>) {
    forall a, b :: 0 <= a < b < |routes| ==> Cell(routes[a], RouteId) != Cell(routes[b], RouteId)
  }

  lemma {:induction false} AtMostOneRoute(routes: seq<Row>, s: Row)
    requires UniqueRouteIds(routes)
    ensures |RouteMatches(routes, s)| <= 1
  {
    if |routes| > 0 {
      var p := (m: Row) => Cell(m, RouteId) == Cell(s, RouteId);
      var tail := routes[1..];
      assert UniqueRouteIds(tail) by {
        forall a, b | 0 <= a < b < |tail|
          ensures Cell(tail[a], RouteId) != Cell(tail[b], RouteId)
        {
          assert tail[a] == routes[a + 1] && tail[b] == routes[b + 1];
        }
      }
      if p(routes[0]) {
        forall i | 0 <= i < |tail|
          ensures !p(tail[i])
        {
          assert tail[i] == routes[i + 1];
        }
        FilterNone(tail, p);
      } else {
        AtMostOneRoute(tail, s);
      }
    }
  }

  /** The route row a trip joins with; the empty row (all nulls) if none. */
  function RouteOf(routes: seq<Row>, s: Row): Row {
    var matches := RouteMatches(routes, s);
    if |matches| == 0 then map[] else matches[0]
  }

  /** With unique route ids the left join neither drops nor multiplies
      rows. */
  lemma JoinRoutesOneEach(firsts: seq<Row>, routes: seq<Row>, attributes: seq<string>)
    requires UniqueRouteIds(routes)
    ensures |JoinRoutes(firsts, routes, attributes)| == |firsts|
    ensures forall k :: 0 <= k < |firsts| ==>
      JoinRoutes(firsts, routes, attributes)[k] == SampleRow(firsts[k], RouteOf(routes, firsts[k]), attributes)
  {
    var runs := MapSeq(firsts, (s: Row) => JoinRoute(s, routes, attributes));
    forall k | 0 <= k < |runs|
      ensures runs[k] == [SampleRow(firsts[k], RouteOf(routes, firsts[k]), attributes)]
    {
      JoinRouteSingle(firsts[k], routes, attributes);
    }
    FlattenSingletons(runs);
  }

  /** With unique route ids a trip's left join is the single row joining it
      with its route. */
  lemma JoinRouteSingle(s: Row, routes: seq<Row>, attributes: seq<string>)
    requires UniqueRouteIds(routes)
    ensures JoinRoute(s, routes, attributes) == [SampleRow(s, RouteOf(routes, s), attributes)]
  {
    var matches := RouteMatches(routes, s);
    AtMostOneRoute(routes, s);
    if |matches| == 1 {
      var joined := MapSeq(matches, (m: Row) => SampleRow(s, m, attributes));
      assert joined[0] == SampleRow(s, matches[0], attributes);
      assert joined == [SampleRow(s, matches[0], attributes)];
    }
  }

  /** Exactly one sample row per pattern, in the order of the patterns'
      first trips, when route ids are unique. */
  lemma OneSamplePerPattern(trips: Table, routes: Table)
    requires SelectSamplePatterns(trips, routes).Success?
    requires UniqueRouteIds(routes.rows)
    ensures var out := SelectSamplePatterns(trips, routes).value.rows;
      var firsts := FirstTripPerPattern(trips.rows);
      && |out| == |firsts|
      && (forall k :: 0 <= k < |out| ==>
            out[k] == SampleRow(firsts[k], RouteOf(routes.rows, firsts[k]), RouteAttributeColumns(routes.columns)))
      && (forall a, b :: 0 <= a < b < |out| ==> KeyOf(out[a]) != KeyOf(out[b]))
  {
    SelectSamplePatternsRows(trips, routes);
    var attributes := RouteAttributeColumns(routes.columns);
    var firsts := FirstTripPerPattern(trips.rows);
    var out := JoinRoutes(firsts, routes.rows, attributes);
    JoinRoutesOneEach(firsts, routes.rows, attributes);
    FirstTripPerPatternDistinct(trips.rows);
    forall a, b | 0 <= a < b < |out|
      ensures KeyOf(out[a]) != KeyOf(out[b])
    {
      SampleRowKey(firsts[a], RouteOf(routes.rows, firsts[a]), attributes);
      SampleRowKey(firsts[b], RouteOf(routes.rows, firsts[b]), attributes);
    }
  }

  /** Where each column of a sample row comes from: the three `sample_*`
      columns from the trip's renamed columns, route attributes from the
      joined route (null when none matched), everything else from the trip. */
  lemma SampleRowCell(s: Row, route: Row, attributes: seq<string>, c: string)
    requires forall t :: t in SampleRenames.Values ==> t !in s && t !in attributes
    requires forall n :: n in SampleRenames ==> n !in attributes
    ensures Cell(SampleRow(s, route, attributes), c) ==
      if c == SampleTripId then Cell(s, TripId)
      else if c == SampleServiceId then Cell(s, ServiceId)
      else if c == SampleHeadsign then Cell(s, TripHeadsign)
      else if c in SampleRenames then Null
      else if c in attributes then Cell(route, c)
      else Cell(s, c)
  {
    RenameSampleCell(s + Project(route, attributes), c);
  }

  /** For GTFS-shaped input (no `sample_*` columns yet, routes without trip
      columns): each sample row carries its first trip's trip_id, service_id
      and trip_headsign under the `sample_*` names and its route's
      attributes, null when the route_id matched no route. */
  lemma SampleRowsDescribed(trips: Table, routes: Table, k: int)
    requires SelectSamplePatterns(trips, routes).Success?
    requires UniqueRouteIds(routes.rows)
    requires trips.WellFormed()
    requires forall t :: t in SampleRenames.Values ==> t !in trips.columns && t !in routes.columns
    requires forall n :: n in SampleRenames ==> n !in routes.columns
    requires 0 <= k < |FirstTripPerPattern(trips.rows)|
    ensures var out := SelectSamplePatterns(trips, routes).value.rows;
      var s := FirstTripPerPattern(trips.rows)[k];
      && k < |out|
      && Cell(out[k], SampleTripId) == Cell(s, TripId)
      && Cell(out[k], SampleServiceId) == Cell(s, ServiceId)
      && Cell(out[k], SampleHeadsign) == Cell(s, TripHeadsign)
      && (forall c :: c in routes.columns && c != RouteId ==>
            Cell(out[k], c) == Cell(RouteOf(routes.rows, s), c))
  {
    OneSamplePerPattern(trips, routes);
    FirstTripPerPatternIsFirst(trips.rows, k);
    var attributes := RouteAttributeColumns(routes.columns);
    var s := FirstTripPerPattern(trips.rows)[k];
    var i :| 0 <= i < |trips.rows| && s == trips.rows[i];
    assert s.Keys == set c | c in trips.columns;
    SampleRowCells(s, RouteOf(routes.rows, s), attributes);
  }

  lemma SampleRowCells(s: Row, route: Row, attributes: seq<string>)
    requires forall t :: t in SampleRenames.Values ==> t !in s && t !in attributes
    requires forall n :: n in SampleRenames ==> n !in attributes
    ensures var out := SampleRow(s, route, attributes);
      && Cell(out, SampleTripId) == Cell(s, TripId)
      && Cell(out, SampleServiceId) == Cell(s, ServiceId)
      && Cell(out, SampleHeadsign) == Cell(s, TripHeadsign)
      && (forall c :: c in attributes ==> Cell(out, c) == Cell(route, c))
  {
    SampleRowCell(s, route, attributes, SampleTripId);
    SampleRowCell(s, route, attributes, SampleServiceId);
    SampleRowCell(s, route, attributes, SampleHeadsign);
    forall c | c in attributes {
      SampleRowCell(s, route, attributes, c);
    }
  }
}

=== FILE: schema.dfy ===
/** Schema reconciliation between the pattern stops table and the feature
    class (`getfields`, `addfcfields`, `addconflictingfieldtypes`). */
module Schema {
  import opened Tables
  import opened Seqs
  import opened FeatureStore

  /** The pandas dtype of a column, by its string form. */
  datatype DType = Object | Int64 | Float64 | OtherDType(dtypeName: string)

  /** One DataFrame column: its label and dtype. */
  datatype FrameColumn = FrameColumn(name: string, dtype: DType)

  /** The pattern stops DataFrame: typed columns in order, and its records. */
  datatype Frame = Frame(columns: seq<FrameColumn>, rows: seq<Row>)

  const ConflictSuffix := "_2"

  /** The `{'object':'TEXT','int64':'LONG','float64':'DOUBLE'}` translation,
      with TEXT for every other dtype. */
  function FieldTypeOfDType(d: DType): FieldType {
    match d
    case Object => TEXT
    case Int64 => LONG
    case Float64 => DOUBLE
    case OtherDType(_) => TEXT
  }

  function ColumnNames(frame: Frame): (r: seq<string>)
    ensures |r| == |frame.columns|
    ensures forall i :: 0 <= i < |r| ==> r[i] == frame.columns[i].name
  {
    MapSeq(frame.columns, (c: FrameColumn) => c.name)
  }

  /** Column names of a DataFrame built from records are unique. */
  ghost predicate UniqueColumnNames(frame: Frame) {
    forall a, b :: 0 <= a < b < |frame.columns| ==> frame.columns[a].name != frame.columns[b].name
  }

  /** `getfields`: one (name, type) pair per column, in column order. */
  function GetFields(frame: Frame): (r: seq<Field>)
    ensures |r| == |frame.columns|
    ensures forall i :: 0 <= i < |r| ==> r[i].name == frame.columns[i].name
    ensures forall i :: 0 <= i < |r| ==>
      match frame.columns[i].dtype
      case Object => r[i].ftype == TEXT
      case Int64 => r[i].ftype == LONG
      case Float64 => r[i].ftype == DOUBLE
      case OtherDType(_) => r[i].ftype == TEXT
  {
    MapSeq(frame.columns, (c: FrameColumn) => Field(c.name, FieldTypeOfDType(c.dtype)))
  }

  /** The derived fields whose names are not fields of the store. */
  function MissingFields(store: Store, frame: Frame): seq<Field> {
    Filter(GetFields(frame), (f: Field) => f.name !in FieldNames(store))
  }

  /** The first half of `addfcfields`: add every derived field whose name
      is not yet a field of the store. */
  function AddMissingFields(store: Store, frame: Frame): (r: Store)
    ensures r.records == store.records
    ensures |r.fields| >= |store.fields| && r.fields[..|store.fields|] == store.fields
  {
    var toAdd := MissingFields(store, frame);
    if |toAdd| > 0 then AddFields(store, toAdd) else store
  }

  /** The fields `AddMissingFields` appends are exactly the derived
      columns whose names the store lacks, with their derived types. */
  lemma AddMissingFieldsAdded(store: Store, frame: Frame)
    ensures var r := AddMissingFields(store, frame);
      && (forall i :: |store.fields| <= i < |r.fields| ==>
            && r.fields[i].name !in FieldNames(store)
            && exists j :: 0 <= j < |frame.columns| && r.fields[i] == DerivedField(frame.columns[j]))
      && (forall j :: 0 <= j < |frame.columns| && frame.columns[j].name !in FieldNames(store) ==>
            DerivedField(frame.columns[j]) in r.fields[|store.fields|..])
  {
    var r := AddMissingFields(store, frame);
    var fields := GetFields(frame);
    var toAdd := MissingFields(store, frame);
    assert r.fields[|store.fields|..] == MapSeq(toAdd, StoreFieldOf);
    forall j | 0 <= j < |frame.columns|
      ensures DerivedField(frame.columns[j]) == StoreFieldOf(fields[j])
    {
    }
    forall i | |store.fields| <= i < |r.fields|
      ensures r.fields[i].name !in FieldNames(store)
      ensures exists j :: 0 <= j < |frame.columns| && r.fields[i] == DerivedField(frame.columns[j])
    {
      var f := toAdd[i - |store.fields|];
      assert f in fields;
      var j :| 0 <= j < |fields| && fields[j] == f;
    }
    forall j | 0 <= j < |frame.columns| && frame.columns[j].name !in FieldNames(store)
      ensures DerivedField(frame.columns[j]) in r.fields[|store.fields|..]
    {
      assert fields[j] in toAdd;
    }
  }

  /** The store field a derived column becomes when added. */
  function DerivedField(c: FrameColumn): StoreField {
    StoreField(c.name, StoreTypeOf(FieldTypeOfDType(c.dtype)))
  }

  function StoreFieldOf(f: Field): StoreField {
    StoreField(f.name, StoreTypeOf(f.ftype))
  }

  /** The loop condition of `addconflictingfieldtypes`: same name, and the
      store field's translated type differs from the derived one. */
  predicate Conflicts(f: Field, e: StoreField) {
    f.name == e.name && FieldTypeOf(e.stype) != Some(f.ftype)
  }

  /** Whether a derived field conflicts with some field of the store. */
  predicate HasConflict(f: Field, store: Store) {
    exists e :: e in store.fields && Conflicts(f, e)
  }

  /** `fieldstoadd`: one `<name>_2` field per (derived field, conflicting
      store field) pair, ordered by derived field, then by store field. */
  function ConflictFields(fields: seq<Field>, store: Store): seq<Field> {
    Flatten(MapSeq(fields, (f: Field) =>
      MapSeq(Filter(store.fields, (e: StoreField) => Conflicts(f, e)),
             (e: StoreField) => Field(f.name + ConflictSuffix, f.ftype))))
  }

  /** The keys of `renamed`: names of derived fields with a conflict. */
  function ConflictNames(fields: seq<Field>, store: Store): set<string> {
    set f | f in fields && HasConflict(f, store) :: f.name
  }

  /** `df.rename(columns=renamed)` on one record. */
  function RenameKeys(row: Row, names: set<string>): Row {
    SuffixInjective();
    (map k | k in row && k !in names :: row[k])
    + (map k | k in row && k in names :: k + ConflictSuffix := row[k])
  }

  function RenameColumn(c: FrameColumn, names: set<string>): FrameColumn {
    if c.name in names then FrameColumn(c.name + ConflictSuffix, c.dtype) else c
  }

  /** `df.rename(columns=renamed)`. */
  function RenameFrame(frame: Frame, names: set<string>): Frame {
    Frame(MapSeq(frame.columns, (c: FrameColumn) => RenameColumn(c, names)),
          MapSeq(frame.rows, (row: Row) => RenameKeys(row, names)))
  }

  lemma SuffixInjective()
    ensures forall a: string, b: string :: a + ConflictSuffix == b + ConflictSuffix ==> a == b
  {
    forall a: string, b: string | a + ConflictSuffix == b + ConflictSuffix
      ensures a == b
    {
      assert a == (a + ConflictSuffix)[..|a|];
      assert b == (b + ConflictSuffix)[..|b|];
    }
  }

  /** `addconflictingfieldtypes`: the store with the `<name>_2` fields
      added, and the frame with the conflicting columns renamed; both
      unchanged when nothing conflicts. */
  function AddConflictingFields(store: Store, frame: Frame): (r: (Store, Frame)) {
    var fields := GetFields(frame);
    var toAdd := ConflictFields(fields, store);
    if |toAdd| > 0 then (AddFields(store, toAdd), RenameFrame(frame, ConflictNames(fields, store)))
    else (store, frame)
  }

  /** `addfcfields`: nothing when the feature class does not exist;
      otherwise add the missing fields, then resolve type conflicts against
      the updated field list. */
  function AddFcFields(store: Option<Store>, frame: Frame): (r: (Option<Store>, Option<Frame>))
    ensures store.None? <==> r.0.None?
    ensures r.0.None? <==> r.1.None?
    ensures r.0.Some? ==> r.0.value.records == store.value.records
    ensures r.0.Some? ==>
      |r.0.value.fields| >= |store.value.fields| && r.0.value.fields[..|store.value.fields|] == store.value.fields
    ensures r.1.Some? ==> |r.1.value.rows| == |frame.rows|
  {
    if store.None? then (None, None)
    else
      var added := AddMissingFields(store.value, frame);
      var (updated, renamed) := AddConflictingFields(added, frame);
      assert updated.fields[..|store.value.fields|] == added.fields[..|store.value.fields|];
      (Some(updated), Some(renamed))
  }

  /** After `AddMissingFields` every column name is a field of the store. */
  lemma AddMissingFieldsCoversColumns(store: Store, frame: Frame)
    ensures forall j :: 0 <= j < |frame.columns| ==> frame.columns[j].name in FieldNames(AddMissingFields(store, frame))
  {
    var r := AddMissingFields(store, frame);
    AddMissingFieldsAdded(store, frame);
    forall j | 0 <= j < |frame.columns|
      ensures frame.columns[j].name in FieldNames(r)
    {
      if frame.columns[j].name in FieldNames(store) {
        var i :| 0 <= i < |store.fields| && store.fields[i].name == frame.columns[j].name;
        assert r.fields[i] == store.fields[i];
      } else {
        var e := DerivedField(frame.columns[j]);
        assert e in r.fields[|store.fields|..];
        var i :| |store.fields| <= i < |r.fields| && r.fields[i] == e;
        assert FieldNames(r)[i] == e.name;
      }
    }
  }

  /** Adding the missing fields is idempotent: a second pass adds nothing. */
  lemma AddMissingFieldsIdempotent(store: Store, frame: Frame)
    ensures AddMissingFields(AddMissingFields(store, frame), frame) == AddMissingFields(store, frame)
  {
    var r := AddMissingFields(store, frame);
    AddMissingFieldsCoversColumns(store, frame);
    var fields := GetFields(frame);
    FilterNone(fields, (f: Field) => f.name !in FieldNames(r));
  }

  /** There is something to add exactly when some derived field conflicts. */
  lemma ConflictFieldsNonEmpty(fields: seq<Field>, store: Store)
    ensures |ConflictFields(fields, store)| > 0 <==> exists j :: 0 <= j < |fields| && HasConflict(fields[j], store)
  {
    var runs := MapSeq(fields, (f: Field) =>
      MapSeq(Filter(store.fields, (e: StoreField) => Conflicts(f, e)),
             (e: StoreField) => Field(f.name + ConflictSuffix, f.ftype)));
    FlattenIsEmpty(runs);
    forall j | 0 <= j < |fields|
      ensures runs[j] != [] <==> HasConflict(fields[j], store)
    {
      var matches := Filter(store.fields, (e: StoreField) => Conflicts(fields[j], e));
      if HasConflict(fields[j], store) {
        var e :| e in store.fields && Conflicts(fields[j], e);
        var i :| 0 <= i < |store.fields| && store.fields[i] == e;
        assert e in matches;
      }
      if matches != [] {
        assert matches[0] in store.fields;
      }
    }
  }

  /** Every field appended for a conflict is `<name>_2` with the derived
      type of a conflicting column, and every conflicting column gets one. */
  lemma ConflictFieldsContent(fields: seq<Field>, store: Store)
    ensures forall g :: g in ConflictFields(fields, store) ==>
      exists j ::
        && 0 <= j < |fields| && HasConflict(fields[j], store)
        && g == Field(fields[j].name + ConflictSuffix, fields[j].ftype)
    ensures forall j :: 0 <= j < |fields| && HasConflict(fields[j], store) ==>
      Field(fields[j].name + ConflictSuffix, fields[j].ftype) in ConflictFields(fields, store)
  {
    var runs := MapSeq(fields, (f: Field) =>
      MapSeq(Filter(store.fields, (e: StoreField) => Conflicts(f, e)),
             (e: StoreField) => Field(f.name + ConflictSuffix, f.ftype)));
    forall g | g in ConflictFields(fields, store)
      ensures exists j ::
        && 0 <= j < |fields| && HasConflict(fields[j], store)
        && g == Field(fields[j].name + ConflictSuffix, fields[j].ftype)
    {
      FlattenMember(runs, g);
      var j :| 0 <= j < |runs| && g in runs[j];
      var matches := Filter(store.fields, (e: StoreField) => Conflicts(fields[j], e));
      var k :| 0 <= k < |matches| && runs[j][k] == g;
      assert matches[k] in store.fields;
    }
    forall j | 0 <= j < |fields| && HasConflict(fields[j], store)
      ensures Field(fields[j].name + ConflictSuffix, fields[j].ftype) in ConflictFields(fields, store)
    {
      var e :| e in store.fields && Conflicts(fields[j], e);
      var matches := Filter(store.fields, (e: StoreField) => Conflicts(fields[j], e));
      var i :| 0 <= i < |store.fields| && store.fields[i] == e;
      assert e in matches;
      FlattenMember(runs, runs[j][0]);
    }
  }

  /** `addconflictingfieldtypes` leaves store and frame alone exactly when
      no derived field conflicts, and only ever appends to the store. */
  lemma AddConflictingFieldsUnchanged(store: Store, frame: Frame)
    ensures var s := AddConflictingFields(store, frame).0;
      var fields := GetFields(frame);
      && ((forall j :: 0 <= j < |fields| ==> !HasConflict(fields[j], store)) <==> AddConflictingFields(store, frame) == (store, frame))
      && s.records == store.records
      && |s.fields| >= |store.fields| && s.fields[..|store.fields|] == store.fields
  {
    ConflictFieldsNonEmpty(GetFields(frame), store);
  }

  /** The store field `addconflictingfieldtypes` appends for a derived
      field that conflicts. */
  function SuffixedField(f: Field): StoreField {
    StoreField(f.name + ConflictSuffix, StoreTypeOf(f.ftype))
  }

  /** Every field the conflict step appends is the suffixed field of a
      derived field that conflicts. */
  lemma AddConflictingFieldsAddsOnlyConflicts(store: Store, frame: Frame)
    ensures forall i :: |store.fields| <= i < |AddConflictingFields(store, frame).0.fields| ==>
      SuffixOfConflict(store, frame, AddConflictingFields(store, frame).0.fields[i])
  {
    forall i | |store.fields| <= i < |AddConflictingFields(store, frame).0.fields|
      ensures SuffixOfConflict(store, frame, AddConflictingFields(store, frame).0.fields[i])
    {
      AddedConflictField(store, frame, i);
    }
  }

  /** `e` is the suffixed field of a derived field that conflicts with
      `store`. */
  ghost predicate SuffixOfConflict(store: Store, frame: Frame, e: StoreField) {
    exists j :: 0 <= j < |frame.columns| && HasConflict(GetFields(frame)[j], store) && e == SuffixedField(GetFields(frame)[j])
  }

  /** One appended field at a time. */
  lemma AddedConflictField(store: Store, frame: Frame, i: int)
    requires |store.fields| <= i < |AddConflictingFields(store, frame).0.fields|
    ensures SuffixOfConflict(store, frame, AddConflictingFields(store, frame).0.fields[i])
  {
    var fields := GetFields(frame);
    var toAdd := ConflictFields(fields, store);
    assert |toAdd| > 0;
    var s := AddFields(store, toAdd);
    assert AddConflictingFields(store, frame).0 == s;
    var g := toAdd[i - |store.fields|];
    assert s.fields[i] == StoreFieldOf(g);
    ConflictFieldsContent(fields, store);
    assert g in toAdd;
    var j :| 0 <= j < |fields| && HasConflict(fields[j], store) && g == Field(fields[j].name + ConflictSuffix, fields[j].ftype);
    assert s.fields[i] == SuffixedField(fields[j]);
  }

  /** Every derived field that conflicts gets its suffixed field appended. */
  lemma AddConflictingFieldsAddsEveryConflict(store: Store, frame: Frame)
    ensures var s := AddConflictingFields(store, frame).0;
      forall j :: 0 <= j < |frame.columns| && HasConflict(GetFields(frame)[j], store) ==>
        SuffixedField(GetFields(frame)[j]) in s.fields[|store.fields|..]
  {
    var fields := GetFields(frame);
    var toAdd := ConflictFields(fields, store);
    var s := AddConflictingFields(store, frame).0;
    ConflictFieldsContent(fields, store);
    forall j | 0 <= j < |fields| && HasConflict(fields[j], store)
      ensures SuffixedField(fields[j]) in s.fields[|store.fields|..]
    {
      var g := Field(fields[j].name + ConflictSuffix, fields[j].ftype);
      var k :| 0 <= k < |toAdd| && toAdd[k] == g;
      assert s.fields[|store.fields|..][k] == StoreFieldOf(g);
    }
  }

  /** A renamed record holds each renamed column's value under its new name. */
  lemma RenameKeysMoves(row: Row, names: set<string>, k: string)
    requires k in names && k in row
    ensures k + ConflictSuffix in RenameKeys(row, names)
    ensures RenameKeys(row, names)[k + ConflictSuffix] == row[k]
  {
    SuffixInjective();
  }

  /** `k` is the `<name>_2` of a conflicting column: the name a rename of
      that column moves its values to. */
  ghost predicate IsConflictTarget(store: Store, frame: Frame, k: string) {
    exists j :: 0 <= j < |frame.columns| && HasConflict(GetFields(frame)[j], store) && k == frame.columns[j].name + ConflictSuffix
  }

  /** A renamed record keeps the value of a key that is not renamed, unless
      some renamed key's `<name>_2` takes its place. */
  lemma RenameKeysKeeps(row: Row, names: set<string>, k: string)
    requires k in row && k !in names
    requires forall n :: n in names ==> n + ConflictSuffix != k
    ensures k in RenameKeys(row, names)
    ensures RenameKeys(row, names)[k] == row[k]
  {
  }

  /** With unique column names, exactly the conflicting columns are renamed
      to `<name>_2` (keeping their dtype), and each record's value moves with
      its column: a renamed column's value is found under `<name>_2`, and a
      column left alone keeps its value unless a renamed column's `<name>_2`
      is its name. */
  lemma AddConflictingFieldsFrame(store: Store, frame: Frame)
    requires UniqueColumnNames(frame)
    ensures var f := AddConflictingFields(store, frame).1;
      && |f.columns| == |frame.columns| && |f.rows| == |frame.rows|
      && (forall i :: 0 <= i < |frame.columns| ==>
            f.columns[i] == if HasConflict(GetFields(frame)[i], store)
                            then FrameColumn(frame.columns[i].name + ConflictSuffix, frame.columns[i].dtype)
                            else frame.columns[i])
      && (forall r, i ::
            && 0 <= r < |frame.rows| && 0 <= i < |frame.columns|
            && HasConflict(GetFields(frame)[i], store) && frame.columns[i].name in frame.rows[r]
            ==> Cell(f.rows[r], frame.columns[i].name + ConflictSuffix) == frame.rows[r][frame.columns[i].name])
      && (forall r, i ::
            && 0 <= r < |frame.rows| && 0 <= i < |frame.columns|
            && !HasConflict(GetFields(frame)[i], store) && frame.columns[i].name in frame.rows[r]
            && !IsConflictTarget(store, frame, frame.columns[i].name)
            ==> Cell(f.rows[r], frame.columns[i].name) == frame.rows[r][frame.columns[i].name])
  {
    AddConflictingFieldsColumns(store, frame);
    AddConflictingFieldsRows(store, frame);
    AddConflictingFieldsKeeps(store, frame);
  }

  /** With unique column names, a column that does not conflict keeps its
      value in every record, unless it is named like the `<name>_2` of a
      conflicting column. */
  lemma AddConflictingFieldsKeeps(store: Store, frame: Frame)
    requires UniqueColumnNames(frame)
    ensures var f := AddConflictingFields(store, frame).1;
      && |f.rows| == |frame.rows|
      && forall r, i ::
           && 0 <= r < |frame.rows| && 0 <= i < |frame.columns|
           && !HasConflict(GetFields(frame)[i], store) && frame.columns[i].name in frame.rows[r]
           && !IsConflictTarget(store, frame, frame.columns[i].name)
           ==> Cell(f.rows[r], frame.columns[i].name) == frame.rows[r][frame.columns[i].name]
  {
    forall r, i | 0 <= r < |frame.rows| && 0 <= i < |frame.columns|
        && !HasConflict(GetFields(frame)[i], store) && frame.columns[i].name in frame.rows[r]
        && !IsConflictTarget(store, frame, frame.columns[i].name)
      ensures Cell(AddConflictingFields(store, frame).1.rows[r], frame.columns[i].name)
        == frame.rows[r][frame.columns[i].name]
    {
      UnrenamedRowKeepsValue(store, frame, r, i);
    }
  }

  /** One record's value of one column that is neither renamed nor the
      target of a rename. */
  lemma UnrenamedRowKeepsValue(store: Store, frame: Frame, r: int, i: int)
    requires UniqueColumnNames(frame)
    requires 0 <= r < |frame.rows| && 0 <= i < |frame.columns|
    requires !HasConflict(GetFields(frame)[i], store) && frame.columns[i].name in frame.rows[r]
    requires !IsConflictTarget(store, frame, frame.columns[i].name)
    ensures |AddConflictingFields(store, frame).1.rows| == |frame.rows|
    ensures Cell(AddConflictingFields(store, frame).1.rows[r], frame.columns[i].name)
      == frame.rows[r][frame.columns[i].name]
  {
    var fields := GetFields(frame);
    var names := ConflictNames(fields, store);
    var k := frame.columns[i].name;
    ConflictNamesExact(store, frame, i);
    assert k !in names;
    forall n | n in names
      ensures n + ConflictSuffix != k
    {
      var g :| g in fields && HasConflict(g, store) && g.name == n;
      var j :| 0 <= j < |fields| && fields[j] == g;
      assert frame.columns[j].name == n;
    }
    if |ConflictFields(fields, store)| > 0 {
      RenameKeysKeeps(frame.rows[r], names, k);
      assert RenameFrame(frame, names).rows[r] == RenameKeys(frame.rows[r], names);
    }
  }

  /** With unique column names, a column's name is among the renamed names
      exactly when that column conflicts. */
  lemma ConflictNamesExact(store: Store, frame: Frame, i: int)
    requires UniqueColumnNames(frame) && 0 <= i < |frame.columns|
    ensures frame.columns[i].name in ConflictNames(GetFields(frame), store) <==> HasConflict(GetFields(frame)[i], store)
  {
    var fields := GetFields(frame);
    if frame.columns[i].name in ConflictNames(fields, store) {
      var f :| f in fields && HasConflict(f, store) && f.name == frame.columns[i].name;
      var k :| 0 <= k < |fields| && fields[k] == f;
      assert k == i;
    }
  }

  lemma AddConflictingFieldsColumns(store: Store, frame: Frame)
    requires UniqueColumnNames(frame)
    ensures var f := AddConflictingFields(store, frame).1;
      && |f.columns| == |frame.columns| && |f.rows| == |frame.rows|
      && (forall i :: 0 <= i < |frame.columns| ==>
            f.columns[i] == if HasConflict(GetFields(frame)[i], store)
                            then FrameColumn(frame.columns[i].name + ConflictSuffix, frame.columns[i].dtype)
                            else frame.columns[i])
  {
    var fields := GetFields(frame);
    ConflictFieldsNonEmpty(fields, store);
    forall i | 0 <= i < |frame.columns|
      ensures frame.columns[i].name in ConflictNames(fields, store) <==> HasConflict(fields[i], store)
    {
      ConflictNamesExact(store, frame, i);
    }
  }

  lemma AddConflictingFieldsRows(store: Store, frame: Frame)
    ensures var f := AddConflictingFields(store, frame).1;
      && |f.rows| == |frame.rows|
      && forall r, i ::
           && 0 <= r < |frame.rows| && 0 <= i < |frame.columns|
           && HasConflict(GetFields(frame)[i], store) && frame.columns[i].name in frame.rows[r]
           ==> Cell(f.rows[r], frame.columns[i].name + ConflictSuffix) == frame.rows[r][frame.columns[i].name]
  {
    forall r, i | 0 <= r < |frame.rows| && 0 <= i < |frame.columns| &&
        HasConflict(GetFields(frame)[i], store) && frame.columns[i].name in frame.rows[r]
      ensures Cell(AddConflictingFields(store, frame).1.rows[r], frame.columns[i].name + ConflictSuffix)
        == frame.rows[r][frame.columns[i].name]
    {
      RenamedRowKeepsValue(store, frame, r, i);
    }
  }

  /** One record's value of one conflicting column, after the rename. */
  lemma RenamedRowKeepsValue(store: Store, frame: Frame, r: int, i: int)
    requires 0 <= r < |frame.rows| && 0 <= i < |frame.columns|
    requires HasConflict(GetFields(frame)[i], store) && frame.columns[i].name in frame.rows[r]
    ensures |AddConflictingFields(store, frame).1.rows| == |frame.rows|
    ensures Cell(AddConflictingFields(store, frame).1.rows[r], frame.columns[i].name + ConflictSuffix)
      == frame.rows[r][frame.columns[i].name]
  {
    var fields := GetFields(frame);
    var names := ConflictNames(fields, store);
    ConflictFieldsNonEmpty(fields, store);
    assert AddConflictingFields(store, frame).1 == RenameFrame(frame, names);
    assert RenameFrame(frame, names).rows[r] == RenameKeys(frame.rows[r], names);
    assert fields[i] in fields;
    assert frame.columns[i].name in names;
    RenameKeysMoves(frame.rows[r], names, frame.columns[i].name);
  }

  /** Fields just added for missing names carry the derived type, so with
      unique column names they never conflict: the conflict step after
      `AddMissingFields` sees exactly the conflicts of the original store. */
  lemma FreshFieldsNeverConflict(store: Store, frame: Frame)
    requires UniqueColumnNames(frame)
    ensures forall j :: 0 <= j < |frame.columns| ==>
      (HasConflict(GetFields(frame)[j], AddMissingFields(store, frame)) <==> HasConflict(GetFields(frame)[j], store))
  {
    var fields := GetFields(frame);
    var added := AddMissingFields(store, frame);
    forall j | 0 <= j < |frame.columns|
      ensures HasConflict(fields[j], added) <==> HasConflict(fields[j], store)
    {
      if HasConflict(fields[j], added) {
        var e :| e in added.fields && Conflicts(fields[j], e);
        var i :| 0 <= i < |added.fields| && added.fields[i] == e;
        FreshFieldAgrees(store, frame, j, i);
        assert i < |store.fields|;
        assert e == store.fields[i];
      }
      if HasConflict(fields[j], store) {
        var e :| e in store.fields && Conflicts(fields[j], e);
        var i :| 0 <= i < |store.fields| && store.fields[i] == e;
        assert added.fields[i] == e;
      }
    }
  }

  /** A field appended for a missing name never conflicts with a derived
      field. */
  lemma FreshFieldAgrees(store: Store, frame: Frame, j: int, i: int)
    requires UniqueColumnNames(frame) && 0 <= j < |frame.columns|
    requires 0 <= i < |AddMissingFields(store, frame).fields|
    ensures |store.fields| <= i ==> !Conflicts(GetFields(frame)[j], AddMissingFields(store, frame).fields[i])
  {
    if |store.fields| <= i {
      var added := AddMissingFields(store, frame);
      AddMissingFieldsAdded(store, frame);
      var k :| 0 <= k < |frame.columns| && added.fields[i] == DerivedField(frame.columns[k]);
      if k != j {
        assert frame.columns[k].name != frame.columns[j].name;
      }
    }
  }

  /** `addfcfields` renames exactly the columns whose derived type
      conflicts with a same-named field of the feature class as it was
      before the call. */
  lemma AddFcFieldsRenames(store: Store, frame: Frame)
    requires UniqueColumnNames(frame)
    ensures var (s, f) := AddFcFields(Some(store), frame);
      && |f.value.columns| == |frame.columns|
      && forall i :: 0 <= i < |frame.columns| ==>
           f.value.columns[i] == if HasConflict(GetFields(frame)[i], store)
                                 then FrameColumn(frame.columns[i].name + ConflictSuffix, frame.columns[i].dtype)
                                 else frame.columns[i]
  {
    FreshFieldsNeverConflict(store, frame);
    AddConflictingFieldsColumns(AddMissingFields(store, frame), frame);
  }

  /** After `addfcfields` every column of the returned frame names a field
      of the feature class, so every column is written. */
  lemma AddFcFieldsCoversColumns(store: Store, frame: Frame)
    requires UniqueColumnNames(frame)
    ensures var (s, f) := AddFcFields(Some(store), frame);
      forall i :: 0 <= i < |f.value.columns| ==> f.value.columns[i].name in FieldNames(s.value)
  {
    var fields := GetFields(frame);
    var added := AddMissingFields(store, frame);
    var (s, f) := AddFcFields(Some(store), frame);
    AddFcFieldsRenames(store, frame);
    AddMissingFieldsCoversColumns(store, frame);
    FreshFieldsNeverConflict(store, frame);
    AddConflictingFieldsAddsEveryConflict(added, frame);
    forall i | 0 <= i < |f.value.columns|
      ensures f.value.columns[i].name in FieldNames(s.value)
    {
      if HasConflict(fields[i], store) {
        var e := SuffixedField(fields[i]);
        assert e in s.value.fields[|added.fields|..];
        var k :| |added.fields| <= k < |s.value.fields| && s.value.fields[k] == e;
        assert FieldNames(s.value)[k] == e.name;
      } else {
        var k :| 0 <= k < |added.fields| && FieldNames(added)[k] == frame.columns[i].name;
        assert s.value.fields[k] == added.fields[k];
        assert FieldNames(s.value)[k] == frame.columns[i].name;
      }
    }
  }

  /** When no column conflicts, a second `addfcfields` with the same frame
      changes nothing. */
  lemma AddFcFieldsIdempotentWithoutConflict(store: Store, frame: Frame)
    requires UniqueColumnNames(frame)
    requires forall j :: 0 <= j < |frame.columns| ==> !HasConflict(GetFields(frame)[j], store)
    ensures var (s, f) := AddFcFields(Some(store), frame);
      && f == Some(frame)
      && AddFcFields(s, frame) == (s, f)
  {
    var added := AddMissingFields(store, frame);
    FreshFieldsNeverConflict(store, frame);
    AddConflictingFieldsUnchanged(added, frame);
    AddMissingFieldsIdempotent(store, frame);
    AddConflictingFieldsUnchanged(AddMissingFields(added, frame), frame);
  }

  /** A conflict is never resolved: the feature class that `addfcfields`
      returns still conflicts on the same columns, so every later call with
      the same frame asks again for the same `<name>_2` fields and renames
      again. */
  lemma ConflictsPersist(store: Store, frame: Frame, j: int)
    requires 0 <= j < |frame.columns| && HasConflict(GetFields(frame)[j], store)
    ensures var s := AddFcFields(Some(store), frame).0.value;
      && HasConflict(GetFields(frame)[j], s)
      && Field(frame.columns[j].name + ConflictSuffix, GetFields(frame)[j].ftype) in ConflictFields(GetFields(frame), s)
  {
    var fields := GetFields(frame);
    var s := AddFcFields(Some(store), frame).0.value;
    var e :| e in store.fields && Conflicts(fields[j], e);
    var i :| 0 <= i < |store.fields| && store.fields[i] == e;
    assert s.fields[..|store.fields|][i] == e;
    ConflictFieldsContent(fields, s);
  }

  /** The feature class holds `rating` as an Integer field and the table
      brings `rating` as text: `rating_2` (TEXT) is added and the column
      is renamed to it. */
  lemma RatingConflictExample()
    ensures AddFcFields(Some(Store([StoreField("rating", IntegerType)], [])), Frame([FrameColumn("rating", Object)], [])) ==
      (Some(Store([StoreField("rating", IntegerType), StoreField("rating_2", StringType)], [])),
       Some(Frame([FrameColumn("rating_2", Object)], [])))
  {
    var store := Store([StoreField("rating", IntegerType)], []);
    var frame := Frame([FrameColumn("rating", Object)], []);
    RatingConflictFields();
    assert FieldNames(store) == ["rating"];
    assert MissingFields(store, frame) == [];
    assert AddMissingFields(store, frame) == store;
    var renamed := RenameFrame(frame, {"rating"});
    assert renamed.columns[0] == FrameColumn("rating_2", Object);
    assert renamed == Frame([FrameColumn("rating_2", Object)], []);
    var grown := AddFields(store, [Field("rating_2", TEXT)]);
    assert grown.fields[1] == StoreField("rating_2", StringType);
    assert grown == Store([StoreField("rating", IntegerType), StoreField("rating_2", StringType)], []);
  }

  lemma RatingConflictFields()
    ensures var store := Store([StoreField("rating", IntegerType)], []);
      var fields := GetFields(Frame([FrameColumn("rating", Object)], []));
      && fields == [Field("rating", TEXT)]
      && ConflictFields(fields, store) == [Field("rating_2", TEXT)]
      && ConflictNames(fields, store) == {"rating"}
  {
    var store := Store([StoreField("rating", IntegerType)], []);
    var fields := GetFields(Frame([FrameColumn("rating", Object)], []));
    assert fields == [Field("rating", TEXT)];
    var matches := Filter(store.fields, (e: StoreField) => Conflicts(fields[0], e));
    assert matches == store.fields;
    assert "rating" + ConflictSuffix == "rating_2";
    var runs := MapSeq(fields, (f: Field) =>
      MapSeq(Filter(store.fields, (e: StoreField) => Conflicts(f, e)),
             (e: StoreField) => Field(f.name + ConflictSuffix, f.ftype)));
    assert |runs| == 1;
    assert runs[0] == MapSeq(matches, (e: StoreField) => Field(fields[0].name + ConflictSuffix, fields[0].ftype));
    assert |runs[0]| == 1 && runs[0][0] == Field("rating_2", TEXT);
    assert runs[0] == [Field("rating_2", TEXT)];
    assert runs == [[Field("rating_2", TEXT)]];
    assert Flatten(runs) == [Field("rating_2", TEXT)] + Flatten(runs[1..]);
    assert HasConflict(fields[0], store);
  }

  /** Every record carries exactly the frame's column names, as the
      records of a DataFrame do. */
  ghost predicate WellFormedFrame(frame: Frame) {
    RowsMatchColumns(frame.rows, ColumnNames(frame))
  }

  /** Renaming columns and record keys together keeps records and columns
      in step. */
  lemma RenameFrameWellFormed(frame: Frame, names: set<string>)
    requires WellFormedFrame(frame)
    ensures WellFormedFrame(RenameFrame(frame, names))
  {
    var f := RenameFrame(frame, names);
    forall r | 0 <= r < |f.rows|
      ensures f.rows[r].Keys == set c | c in ColumnNames(f)
    {
      RenameRowWellFormed(frame, names, frame.rows[r]);
    }
  }

  /** One record of a renamed frame carries exactly the renamed columns. */
  lemma RenameRowWellFormed(frame: Frame, names: set<string>, row: Row)
    requires row.Keys == set c | c in ColumnNames(frame)
    ensures RenameKeys(row, names).Keys == set c | c in ColumnNames(RenameFrame(frame, names))
  {
    var columns := ColumnNames(RenameFrame(frame, names));
    forall x | x in RenameKeys(row, names)
      ensures x in columns
    {
      RenamedKeyIsColumn(frame, names, row, x);
    }
    forall x | x in columns
      ensures x in RenameKeys(row, names)
    {
      var i :| 0 <= i < |columns| && columns[i] == x;
      RenamedColumnIsKey(frame, names, row, i);
    }
  }

  lemma RenamedKeyIsColumn(frame: Frame, names: set<string>, row: Row, x: string)
    requires row.Keys == set c | c in ColumnNames(frame)
    requires x in RenameKeys(row, names)
    ensures x in ColumnNames(RenameFrame(frame, names))
  {
    var columns := ColumnNames(RenameFrame(frame, names));
    if x in row && x !in names {
      assert x in ColumnNames(frame);
      var i :| 0 <= i < |frame.columns| && ColumnNames(frame)[i] == x;
      assert columns[i] == x;
    } else {
      var k :| k in row && k in names && x == k + ConflictSuffix;
      assert k in ColumnNames(frame);
      var i :| 0 <= i < |frame.columns| && ColumnNames(frame)[i] == k;
      assert columns[i] == x;
    }
  }

  lemma RenamedColumnIsKey(frame: Frame, names: set<string>, row: Row, i: int)
    requires row.Keys == set c | c in ColumnNames(frame)
    requires 0 <= i < |frame.columns|
    ensures ColumnNames(RenameFrame(frame, names))[i] in RenameKeys(row, names)
  {
    var k := frame.columns[i].name;
    assert ColumnNames(frame)[i] == k;
    assert k in row;
    if k in names {
      RenameKeysMoves(row, names, k);
    }
  }

  /** The conflict test in the feature class's own terms: a same-named
      field conflicts unless it was created with the derived field's type;
      a field of any type other than String, Integer or Double always
      conflicts. */
  lemma ConflictsByStoreType(f: Field, e: StoreField)
    requires f.name == e.name
    ensures Conflicts(f, e) <==> e.stype != StoreTypeOf(f.ftype)
    ensures e.stype.OtherType? ==> Conflicts(f, e)
  {
  }
}

=== FILE: seqs.dfy ===
/** Order-preserving sequence combinators used to describe table operations:
    filtering rows, mapping over them and concatenating runs of rows. */
module Seqs {

  /** The elements of `s` satisfying `p`, in their original order. */
  function Filter<T>(s: seq<T>, p: T -> bool): (r: seq<T>)
    ensures |r| <= |s|
    ensures forall i :: 0 <= i < |r| ==> r[i] in s && p(r[i])
    ensures forall i :: 0 <= i < |s| && p(s[i]) ==> s[i] in r
  {
    if |s| == 0 then []
    else (if p(s[0]) then [s[0]] else []) + Filter(s[1..], p)
  }

  /** The positions of `s` whose elements satisfy `p`, in increasing order. */
  ghost function FilterIndices<T>(s: seq<T>, p: T -> bool): seq<int> {
    if |s| == 0 then []
    else
      var rest := FilterIndices(s[1..], p);
      (if p(s[0]) then [0] else []) + seq(|rest|, k requires 0 <= k < |rest| => rest[k] + 1)
  }

  /** `Filter` is an order-preserving selection: its k-th element is the
      element of `s` at the k-th position that satisfies `p`, those positions
      increase strictly, and every position that satisfies `p` is selected. So
      each kept element appears exactly as often as in `s`. */
  lemma FilterIndicesSpec<T>(s: seq<T>, p: T -> bool)
    ensures var idx := FilterIndices(s, p);
      && |idx| == |Filter(s, p)|
      && (forall k :: 0 <= k < |idx| ==> 0 <= idx[k] < |s| && Filter(s, p)[k] == s[idx[k]])
      && (forall k, l :: 0 <= k < l < |idx| ==> idx[k] < idx[l])
      && (forall i :: 0 <= i < |s| && p(s[i]) ==> i in idx)
  {
    FilterIndicesSelect(s, p);
    FilterIndicesIncreasing(s, p);
    FilterIndicesComplete(s, p);
  }

  lemma {:induction false} FilterIndicesLength<T>(s: seq<T>, p: T -> bool)
    ensures |FilterIndices(s, p)| == |Filter(s, p)|
  {
    if |s| > 0 {
      FilterIndicesLength(s[1..], p);
    }
  }

  lemma {:induction false} FilterIndicesSelect<T>(s: seq<T>, p: T -> bool)
    ensures var idx := FilterIndices(s, p);
      && |idx| == |Filter(s, p)|
      && (forall k :: 0 <= k < |idx| ==> 0 <= idx[k] < |s| && Filter(s, p)[k] == s[idx[k]])
  {
    FilterIndicesLength(s, p);
    if |s| > 0 {
      FilterIndicesSelect(s[1..], p);
      var rest := FilterIndices(s[1..], p);
      var shifted := seq(|rest|, k requires 0 <= k < |rest| => rest[k] + 1);
      var tail := Filter(s[1..], p);
      if p(s[0]) {
        assert FilterIndices(s, p) == [0] + shifted;
        assert Filter(s, p) == [s[0]] + tail;
        forall k | 1 <= k < |shifted| + 1
          ensures 0 <= ([0] + shifted)[k] < |s| && ([s[0]] + tail)[k] == s[([0] + shifted)[k]]
        {
          assert ([0] + shifted)[k] == rest[k - 1] + 1;
          assert ([s[0]] + tail)[k] == tail[k - 1];
        }
      } else {
        assert FilterIndices(s, p) == shifted;
        assert Filter(s, p) == tail;
      }
    }
  }

  lemma {:induction false} FilterIndicesIncreasing<T>(s: seq<T>, p: T -> bool)
    ensures var idx := FilterIndices(s, p);
      forall k, l :: 0 <= k < l < |idx| ==> idx[k] < idx[l]
  {
    if |s| > 0 {
      FilterIndicesIncreasing(s[1..], p);
      FilterIndicesSelect(s[1..], p);
    }
  }

  lemma {:induction false} FilterIndicesComplete<T>(s: seq<T>, p: T -> bool)
    ensures forall i :: 0 <= i < |s| && p(s[i]) ==> i in FilterIndices(s, p)
  {
    if |s| > 0 {
      FilterIndicesComplete(s[1..], p);
      var rest := FilterIndices(s[1..], p);
      var head := if p(s[0]) then [0] else [];
      var idx := FilterIndices(s, p);
      forall i | 0 <= i < |s| && p(s[i])
        ensures i in idx
      {
        if i == 0 {
          assert idx[0] == 0;
        } else {
          assert s[1..][i - 1] == s[i];
          var k :| 0 <= k < |rest| && rest[k] == i - 1;
          assert idx[|head| + k] == i;
        }
      }
    }
  }

  lemma {:induction false} FilterAppend<T>(a: seq<T>, b: seq<T>, p: T -> bool)
    ensures Filter(a + b, p) == Filter(a, p) + Filter(b, p)
  {
    if |a| == 0 {
      assert a + b == b;
    } else {
      assert (a + b)[1..] == a[1..] + b;
      FilterAppend(a[1..], b, p);
    }
  }

  /** Filtering keeps everything when every element qualifies. */
  lemma {:induction false} FilterAll<T>(s: seq<T>, p: T -> bool)
    requires forall i :: 0 <= i < |s| ==> p(s[i])
    ensures Filter(s, p) == s
  {
    if |s| > 0 {
      FilterAll(s[1..], p);
    }
  }

  /** Filtering keeps nothing when no element qualifies. */
  lemma {:induction false} FilterNone<T>(s: seq<T>, p: T -> bool)
    requires forall i :: 0 <= i < |s| ==> !p(s[i])
    ensures Filter(s, p) == []
  {
    if |s| > 0 {
      FilterNone(s[1..], p);
    }
  }

  /** `f` applied to every element of `s`. */
  function MapSeq<T, U>(s: seq<T>, f: T -> U): (r: seq<U>)
    ensures |r| == |s|
    ensures forall i :: 0 <= i < |s| ==> r[i] == f(s[i])
  {
    seq(|s|, i requires 0 <= i < |s| => f(s[i]))
  }

  /** The concatenation of the runs in `ss`, in order. */
  function Flatten<T>(ss: seq<seq<T>>): seq<T> {
    if |ss| == 0 then [] else ss[0] + Flatten(ss[1..])
  }

  /** The total length of the runs in `ss`. */
  function TotalLength<T>(ss: seq<seq<T>>): nat {
    if |ss| == 0 then 0 else |ss[0]| + TotalLength(ss[1..])
  }

  lemma {:induction false} FlattenLength<T>(ss: seq<seq<T>>)
    ensures |Flatten(ss)| == TotalLength(ss)
  {
    if |ss| > 0 {
      FlattenLength(ss[1..]);
    }
  }

  lemma {:induction false} FlattenAppend<T>(a: seq<seq<T>>, b: seq<seq<T>>)
    ensures Flatten(a + b) == Flatten(a) + Flatten(b)
  {
    if |a| == 0 {
      assert a + b == b;
    } else {
      assert (a + b)[1..] == a[1..] + b;
      FlattenAppend(a[1..], b);
    }
  }

  /** Every element of the concatenation comes from one of the runs. */
  lemma {:induction false} FlattenMember<T(!new)>(ss: seq<seq<T>>, x: T)
    ensures x in Flatten(ss) <==> exists i :: 0 <= i < |ss| && x in ss[i]
  {
    if |ss| > 0 {
      FlattenMember(ss[1..], x);
      if x in Flatten(ss[1..]) {
        var i :| 0 <= i < |ss[1..]| && x in ss[1..][i];
        assert x in ss[i + 1];
      }
      if exists i :: 0 <= i < |ss| && x in ss[i] {
        var i :| 0 <= i < |ss| && x in ss[i];
        if i > 0 {
          assert x in ss[1..][i - 1];
        }
      }
    }
  }

  /** Filtering a concatenation filters each run. */
  lemma {:induction false} FilterFlatten<T>(ss: seq<seq<T>>, p: T -> bool)
    ensures Filter(Flatten(ss), p) == Flatten(MapSeq(ss, (s: seq<T>) => Filter(s, p)))
  {
    var f := (s: seq<T>) => Filter(s, p);
    if |ss| > 0 {
      FilterAppend(ss[0], Flatten(ss[1..]), p);
      FilterFlatten(ss[1..], p);
      assert MapSeq(ss, f)[1..] == MapSeq(ss[1..], f);
    }
  }

  /** Concatenating one-element runs lists their elements. */
  lemma {:induction false} FlattenSingletons<T>(ss: seq<seq<T>>)
    requires forall i :: 0 <= i < |ss| ==> |ss[i]| == 1
    ensures |Flatten(ss)| == |ss|
    ensures forall k :: 0 <= k < |ss| ==> Flatten(ss)[k] == ss[k][0]
  {
    if |ss| > 0 {
      FlattenSingletons(ss[1..]);
    }
  }

  /** A concatenation whose runs are all empty but one is that run. */
  lemma {:induction false} FlattenOneRun<T>(ss: seq<seq<T>>, k: int)
    requires 0 <= k < |ss|
    requires forall j :: 0 <= j < |ss| && j != k ==> ss[j] == []
    ensures Flatten(ss) == ss[k]
  {
    if k == 0 {
      FlattenEmptyRuns(ss[1..]);
    } else {
      FlattenOneRun(ss[1..], k - 1);
    }
  }

  lemma {:induction false} FlattenEmptyRuns<T>(ss: seq<seq<T>>)
    requires forall j :: 0 <= j < |ss| ==> ss[j] == []
    ensures Flatten(ss) == []
  {
    if |ss| > 0 {
      FlattenEmptyRuns(ss[1..]);
    }
  }

  lemma {:induction false} TotalLengthPointwise<T, U>(a: seq<seq<T>>, b: seq<seq<U>>)
    requires |a| == |b|
    requires forall i :: 0 <= i < |a| ==> |a[i]| == |b[i]|
    ensures TotalLength(a) == TotalLength(b)
  {
    if |a| > 0 {
      TotalLengthPointwise(a[1..], b[1..]);
    }
  }

  /** A concatenation is empty exactly when all its runs are. */
  lemma FlattenIsEmpty<T>(ss: seq<seq<T>>)
    ensures Flatten(ss) == [] <==> forall i :: 0 <= i < |ss| ==> ss[i] == []
  {
    if exists i :: 0 <= i < |ss| && ss[i] != [] {
      var i :| 0 <= i < |ss| && ss[i] != [];
      FlattenLength(ss);
      TotalLengthPositive(ss, i);
    } else {
      FlattenEmptyRuns(ss);
    }
  }

  lemma {:induction false} TotalLengthPositive<T>(ss: seq<seq<T>>, i: int)
    requires 0 <= i < |ss| && ss[i] != []
    ensures TotalLength(ss) > 0
  {
    if i > 0 {
      TotalLengthPositive(ss[1..], i - 1);
    }
  }

  /** Splitting by a predicate and its negation loses and invents nothing:
      the two parts together are a permutation of the whole. */
  lemma {:induction false} FilterSplit<T>(s: seq<T>, p: T -> bool, q: T -> bool)
    requires forall i :: 0 <= i < |s| ==> q(s[i]) == !p(s[i])
    ensures multiset(Filter(s, p)) + multiset(Filter(s, q)) == multiset(s)
    ensures |Filter(s, p)| + |Filter(s, q)| == |s|
  {
    if |s| > 0 {
      FilterSplit(s[1..], p, q);
      assert s == [s[0]] + s[1..];
    }
  }

  /** Regrouping a concatenation. Dafny knows this, but a call names the
      one instance a loop invariant needs and keeps that proof small. */
  lemma AppendAssociative<T>(a: seq<T>, b: seq<T>, c: seq<T>)
    ensures (a + b) + c == a + (b + c)
  {
  }
}

=== FILE: tables.dfy ===
/** The tabular data model: cell values, rows as maps from column name to
    value, tables as a column list plus a sequence of rows, and the errors a
    pipeline step can end with. */
module Tables {

  /** A cell value. `Null` stands for pandas' missing value (NaN/None).
      Numbers are never computed with. Values compare structurally, so
      `Integer(5)` and `Decimal(5.0)` differ and `Null` equals `Null`,
      unlike Python's `5 == 5.0` and pandas' NaN. */
  datatype Value = Null | Text(text: string) | Integer(n: int) | Decimal(x: real)

  /** One record of a table, as pandas' `to_dict('records')` produces it. */
  type Row = map<string, Value>

  /** A table read from a GTFS text file, or derived from one. */
  datatype Table = Table(columns: seq<string>, rows: seq<Row>) {

    /** Every row carries exactly the table's columns, as in a DataFrame. */
    ghost predicate WellFormed() {
      RowsMatchColumns(rows, columns)
    }
  }

  /** Every row's keys are exactly the given column names: the shape of the
      records of a DataFrame with those columns. */
  ghost predicate RowsMatchColumns(rows: seq<Row>, columns: seq<string>) {
    forall i :: 0 <= i < |rows| ==> rows[i].Keys == set c | c in columns
  }

  // GTFS Schedule field names used by the pipeline.
  const TripId := "trip_id"
  const RouteId := "route_id"
  const ServiceId := "service_id"
  const ShapeId := "shape_id"
  const DirectionId := "direction_id"
  const TripHeadsign := "trip_headsign"
  const StopId := "stop_id"
  const StopLon := "stop_lon"
  const StopLat := "stop_lat"

  // Columns the sample trip table carries after renaming.
  const SampleTripId := "sample_trip_id"
  const SampleServiceId := "sample_service_id"
  const SampleHeadsign := "sample_headsign"

  /** The ways a step of the pipeline can fail. */
  datatype Error =
    | MissingColumn(table: string, column: string)   // pandas KeyError on a column
    | ColumnOverlap(columns: seq<string>)            // DataFrame.join without suffixes
    | UnknownStop(stopId: Value)                     // stops lookup KeyError
    | UnknownTrip(tripId: Value)                     // routes lookup KeyError
    | StoreMissing                                   // the feature class does not exist

  /** Success or failure of a step, usable with `:-`. */
  datatype Result<+T> = Success(value: T) | Failure(error: Error) {

    predicate IsFailure() {
      Failure?
    }

    function PropagateFailure<U>(): Result<U>
      requires Failure?
    {
      Failure(error)
    }

    function Extract(): T
      requires Success?
    {
      value
    }
  }

  /** The value of `column` in `row`; `Null` when the row lacks it. */
  function Cell(row: Row, column: string): Value {
    if column in row then row[column] else Null
  }

  /** The values of `column` down the rows, as pandas' `df[column]`. */
  function Column(rows: seq<Row>, column: string): (r: seq<Value>)
    ensures |r| == |rows|
    ensures forall i :: 0 <= i < |rows| ==> r[i] == Cell(rows[i], column)
  {
    seq(|rows|, i requires 0 <= i < |rows| => Cell(rows[i], column))
  }

  /** The row restricted to `columns`, with `Null` for the ones it lacks
      (pandas' column selection `df[columns]`, and a left join's
      unmatched side). */
  function Project(row: Row, columns: seq<string>): (r: Row)
    ensures r.Keys == set c | c in columns
    ensures forall c :: c in columns ==> r[c] == Cell(row, c)
  {
    map c | c in columns :: Cell(row, c)
  }

  /** The first of `names` that is not in `present`, if any: the name a
      pandas column selection or a Python key lookup raises its KeyError on. */
  function FirstAbsent(names: seq<string>, present: set<string>): (r: Option<string>)
    ensures r.None? <==> forall c :: c in names ==> c in present
    ensures r.Some? ==> r.value in names && r.value !in present
  {
    if |names| == 0 then None
    else if names[0] !in present then Some(names[0])
    else FirstAbsent(names[1..], present)
  }

  /** Names known to be present do not change which name is absent first. */
  lemma {:induction false} FirstAbsentAfter(known: seq<string>, rest: seq<string>, present: set<string>)
    requires forall x :: x in known ==> x in present
    ensures FirstAbsent(known + rest, present) == FirstAbsent(rest, present)
  {
    if |known| > 0 {
      assert (known + rest)[1..] == known[1..] + rest;
      FirstAbsentAfter(known[1..], rest, present);
    } else {
      assert known + rest == rest;
    }
  }

  datatype Option<+T> = None | Some(value: T)
}
